=== FILE: README.md ===
# A verified model of the StellarGraph graph store

StellarGraph keeps an immutable, heterogeneous multigraph:
- every node has a node type label and every edge has an edge type label, with `"default"` when none is given;
- edges may be parallel and may carry a weight, and a missing weight (`None`) is distinct from `0.0`;
- each node type owns a feature table of fixed width.

This project models the store's behaviour as the test suite
`tests/core/test_stellargraph.py` pins it down, and proves properties of that model.
The model covers:

- **`node_features`**: the batch's type is inferred or checked. A null id, or a node without a stored vector, gives a zero row. Mixed types, a wrong explicit type, an all-null batch and an id that is no node are invalid-argument errors. An explicit type that the graph does not have is a not-found error.
- **`_get_index_for_nodes`**: the row of each node in its type's feature table.
- **`neighbors`, `in_nodes` and `out_nodes`**: results are multisets, with an optional edge-type filter and optional weights. Each result appears once per admitted edge that reaches it, counted edge by edge (`Neighbours.EdgeCount`).
- **`create_graph_schema`**: runs over all nodes or over a node subset.
- **`node_types`, `node_feature_sizes` and `edges(triple=True)`**.
- **Construction** from nodes, edges and one iterable of `(id, vector)` pairs that may span several node types.

Modules:

| module | file | content |
|---|---|---|
| `Wrappers` | `wrappers.dfy` | `Option` and `Result` with failure propagation |
| `Graph` | `graph.dfy` | the graph value, its well-formedness `Valid`, error kinds, `node_types`, `node_feature_sizes`, `edges(triple=True)` |
| `Builder` | `builder.dfy` | construction from raw nodes, edges and feature pairs, with its validation errors |
| `Features` | `features.dfy` | batch type resolution, `_get_index_for_nodes`, `node_features`, and loop-based methods proved equal to the functions |
| `Neighbours` | `neighbours.dfy` | adjacency lists, the three neighbour queries and how they relate to the edge list |
| `Schema` | `schema.dfy` | `create_graph_schema` and what it says about out-edges |
| `Scenarios` | `scenarios.dfy` | the test suite's heterogeneous, neighbour and ratings example graphs, and the assertions made about them as lemmas (those not covered are listed under "Left out") |
| `BuildScenarios` | `build_scenarios.dfy` | the heterogeneous example built from one iterable of `(id, vector)` pairs spanning both node types |

Design choices:

- **Feature tables.** The feature table of a type lists every node of that type, in node order. A node without a stored vector has a zero row. That is why `_get_index_for_nodes([4, 5, 6])` gives `[0, 1, 2]` even though node 6 has no vector.
- **Weights** are `Option<real>`, so `None` and `0.0` are different weights. Feature values are exact reals.
- **Undirected graphs.** Each edge appears once in the adjacency of each endpoint, pointing at the other endpoint; a self-loop appears once. `neighbors`, `in_nodes` and `out_nodes` then coincide.
- **Directed graphs.** `neighbors` is the multiset union of `in_nodes` and `out_nodes`.
- **Schema keys.** The schema has a key for every node type, even when no visited node of that type has an edge. This also holds when only a subset of nodes is scanned.
- **Validation order.** A construction error reports the first problem found, in this order:
  1. a duplicate node id;
  2. an edge with an unknown endpoint;
  3. a feature for an unknown node;
  4. vectors of one type with different widths.

  `Builder.Build` and `Builder.Validate` state which error each of these gives.

  When a node id is given more than one vector, the last one wins.

## Model

| member | source | states |
|---|---|---|
| Features.ResolveType | tests/core/test_stellargraph.py:228-270 | An id that is no node is an invalid-argument error naming that id. A batch's type is the explicit type when every non-null id has it. Otherwise it is the single type of the non-null ids. An all-null batch with no type, ids of several types, and an explicit type the ids lack are each a distinct error. |
| Features.InferType | tests/core/test_stellargraph.py:232-270 | The one-pass scan, which fixes the first non-null id's type and checks the rest against it, gives exactly the result of `ResolveType`. |
| Features.IndexForNodes | tests/core/test_stellargraph.py:189-204 | On success, each id's index points at that id in its type's table, and two indices are equal exactly when the ids are. The call fails exactly when type resolution fails; ids spanning two types give the mixed-types error. |
| Features.NodeFeatures | tests/core/test_stellargraph.py:207-270 | One row per batch entry, each as wide as the type's feature size. A null id gives zeros; a node gives its stored vector or zeros. Every failure is the type-resolution error. |
| Features.GatherRows | tests/core/test_stellargraph.py:240-262 | The row-building loop produces, entry by entry, the zero vector for null ids and the stored-or-zero vector for nodes. |
| Features.LookupFeatures | tests/core/test_stellargraph.py:207-270 | The method (unknown-id scan, type inference, row gathering) returns exactly `NodeFeatures`. |
| Features.LookupShape | tests/core/test_stellargraph.py:220-230 | A successful lookup has as many rows as ids, each of the width `node_feature_sizes` reports for the type. |
| Features.NodeFeaturesRows | tests/core/test_stellargraph.py:240-262 | Any row list that zero-fills null ids and gives stored-or-zero vectors for nodes is the lookup's result. |
| Graph.NodeTypes | tests/core/test_stellargraph.py:273-281 | The node types are exactly the labels of existing nodes. |
| Graph.NodeFeatureSizes | tests/core/test_stellargraph.py:212-226 | There is one size per node type, equal to the length of every vector stored for that type. A type without a feature table has size 0. |
| Graph.EdgeTriples | tests/core/test_stellargraph.py:397-402 | One triple per edge: the i-th triple is the i-th edge's (source, destination, type), so multiplicities match the edge list. Every edge's triple is among the triples, and every triple is some edge's. |
| Builder.Build | tests/core/test_stellargraph.py:380-394 | Construction fails exactly on a duplicate node, an edge with an unknown endpoint, a feature for an unknown node, or two widths within one type, and reports the first of these in that order; a duplicate error names an id that two nodes share. Otherwise the graph is valid, keeps node order, types and edges, and holds one table per type that received vectors. |
| Builder.Validate | tests/core/test_stellargraph.py:380-394 | It succeeds exactly when the input is well formed, and then yields the per-type widths. It reports a duplicate id first, naming an id that two nodes share, then a dangling edge, then a feature for a non-node, then a width mismatch. |
| Builder.Widths | tests/core/test_stellargraph.py:380-394 | When all vectors of each type agree in length, it gives each type that received vectors the common length. It reports a mismatch exactly when two vectors of one type differ. |
| Builder.TypeMap | tests/core/test_stellargraph.py:273-275 | Its keys are exactly the supplied ids. When the ids are distinct, each supplied node gets its own label, or "default" when it has none. With a repeated id, the later node's label wins. |
| Builder.BuiltNodeTypes | tests/core/test_stellargraph.py:273-281 | The built graph's node types are the labels, with "default" filled in, of the supplied nodes. |
| Builder.BuiltEdgeTriples | tests/core/test_stellargraph.py:397-402 | The built graph's triples are the supplied edges, in order, with "default" for untyped edges. |
| Builder.BuiltFeatureSizes | tests/core/test_stellargraph.py:380-394 | Each type's feature size is the length of the vectors supplied for it, or 0 if it received none. |
| Builder.BuiltStoredVectors | tests/core/test_stellargraph.py:380-394 | A node's stored vector is the last one supplied for it. A node with no supplied vector reads as zeros. |
| Builder.VectorsHoldSupplied | tests/core/test_stellargraph.py:380-394 | Every supplied pair is kept under its node's type, and the last pair for an id is the one stored. |
| Builder.VectorsOnlySupplied | tests/core/test_stellargraph.py:380-394 | Every stored vector was supplied for that id. |
| Neighbours.Query | tests/core/test_stellargraph.py:603-682 | A query on a non-node fails with a not-found error. Otherwise it succeeds, and results carry weights exactly when weights were asked for. |
| Neighbours.Neighbors | tests/core/test_stellargraph.py:603-631 | It fails exactly on a non-node, with a not-found error. Every result has the requested shape: it carries a weight exactly when weights were asked for. Each result of that shape appears exactly as often as the admitted edges at the node whose other end it names, with its weight if weighted. This holds in directed and undirected graphs and for every filter, so parallel edges repeat the neighbour. A directed self-loop counts twice, once as an in-edge and once as an out-edge. Every result is the other end of such an edge. |
| Neighbours.InNodes | tests/core/test_stellargraph.py:640-659 | It fails exactly on a non-node, with a not-found error. Every result has the requested shape: it carries a weight exactly when weights were asked for. Each result of that shape appears exactly as often as the admitted edges into the node from the named source with that weight (undirected: the admitted edges between the two), for every filter. Every result is the source of such an edge. |
| Neighbours.OutNodes | tests/core/test_stellargraph.py:662-681 | It fails exactly on a non-node, with a not-found error. Every result has the requested shape: it carries a weight exactly when weights were asked for. Each result of that shape appears exactly as often as the admitted edges out of the node to the named destination with that weight (undirected: the admitted edges between the two), for every filter. Every result is the destination of such an edge. |
| Neighbours.QueryFromEdges | tests/core/test_stellargraph.py:603-681 | Every query result comes from an edge that passes the filter and joins the node to the reported neighbour in the asked direction. It carries that edge's weight. |
| Neighbours.QueryCountsEdges | tests/core/test_stellargraph.py:603-681 | For any direction and filter, a query reports each result exactly as often as the edge-by-edge count says: one per admitted edge joining the node to it with that weight, and twice for a directed self-loop under `neighbors`. |
| Neighbours.ViewCountsEdges | tests/core/test_stellargraph.py:603-681 | The filtered and projected adjacency list of a node holds each result exactly as often as the edge-by-edge count says. |
| Neighbours.OutEntriesAreOutEdges | tests/core/test_stellargraph.py:662-682 | Directed: each (target, type, weight) entry appears in `out_nodes` as often as the matching edge from the node occurs. |
| Neighbours.InEntriesAreInEdges | tests/core/test_stellargraph.py:640-660 | Directed: each (source, type, weight) entry appears in `in_nodes` as often as the matching edge into the node occurs. |
| Neighbours.UndirectedEntriesAreIncidentEdges | tests/core/test_stellargraph.py:603-637 | Undirected: an entry for another node counts the edges in either orientation. A self-loop entry counts the loops once. |
| Neighbours.EntriesComeFromEdges | tests/core/test_stellargraph.py:603-682 | Every adjacency entry is contributed by some edge, and every edge's contribution is in the adjacency list. |
| Neighbours.FilterKeepsExactly | tests/core/test_stellargraph.py:610-613 | The edge-type filter keeps every entry of an admitted type, as often as it occurs, and drops all others. |
| Neighbours.BothIsInPlusOut | tests/core/test_stellargraph.py:603-614 | Directed: the full adjacency is, as a multiset, the in-adjacency plus the out-adjacency. |
| Neighbours.UndirectedIgnoresDirection | tests/core/test_stellargraph.py:634-637 | Undirected: the adjacency list does not depend on the direction asked for. |
| Neighbours.DirectedNeighborsAreInPlusOut | tests/core/test_stellargraph.py:603-614 | Directed: `neighbors` is the multiset sum of `in_nodes` and `out_nodes`, under any filter and weight choice. |
| Neighbours.UndirectedNeighborMethodsAgree | tests/core/test_stellargraph.py:634-637 | Undirected: `neighbors`, `in_nodes` and `out_nodes` return the same result. |
| Neighbours.WeightsOnlyDecorate | tests/core/test_stellargraph.py:603-631 | Asking for weights changes neither success nor the node sequence; it only attaches each entry's weight. |
| Neighbours.UnmatchedFilterIsEmpty | tests/core/test_stellargraph.py:629-631 | A filter that admits none of the node's entries gives an empty result. |
| Neighbours.DirectedOutNodesCountEdges | tests/core/test_stellargraph.py:662-671 | Directed, filtered to one type: each (target, weight) result appears as often as the edges of that type and weight to that target. |
| Neighbours.DirectedInNodesCountEdges | tests/core/test_stellargraph.py:640-649 | Directed, filtered to one type: each (source, weight) result appears as often as the edges of that type and weight from that source. |
| Neighbours.UndirectedNeighborsCountEdges | tests/core/test_stellargraph.py:603-631 | Undirected, filtered to one type: each (neighbour, weight) result appears as often as the edges of that type and weight between the node and the neighbour, stored either way round. A self-loop counts once. |
| Schema.Scan | tests/core/test_stellargraph.py:134-142 | The edge scan keeps every key and adds exactly the pairs that some edge gives a visited node of that type. |
| Schema.CreateGraphSchema | tests/core/test_stellargraph.py:121-164 | It fails exactly when the subset names a non-node. Otherwise keys are all node types, node and edge types are the graph's, and a type's entry holds exactly the (edge type, neighbour type) pairs given by edges at visited nodes of that type. |
| Schema.EdgeGivesOutEntry | tests/core/test_stellargraph.py:156-164 | An edge gives a pair exactly when it puts an out-entry of that edge type and neighbour type at a visited node. |
| Schema.SchemaFollowsOutEntries | tests/core/test_stellargraph.py:134-164 | A type's schema entry holds exactly the pairs seen from the out-adjacency of the visited nodes of that type. |
| Schema.SampledSchemaIsPartial | tests/core/test_stellargraph.py:145-153 | The schema of a node subset is, entry by entry, contained in the full schema. |
| Schema.UntypedGraphSchema | tests/core/test_stellargraph.py:121-131 | A graph with no type labels and at least one edge has the one node type "default", the one edge type "default", and schema `{"default": {("default", "default")}}`. |
| Schema.SingleEntry | tests/core/test_stellargraph.py:134-153 | If edges give a type exactly one pair, its schema entry is that singleton. |
| Schema.EmptyEntry | tests/core/test_stellargraph.py:156-164 | If no edge gives a type a pair, its schema entry is empty. |
| Schema.BipartiteDirectedSchema | tests/core/test_stellargraph.py:156-164 | Suppose a directed graph has exactly the node types a and b, with a different from b. Suppose every edge runs from a node of type a to a node of type b with edge type et, and the source of at least one edge is scanned. Then its schema is `{a: {(et, b)}, b: {}}`. |
| Schema.BipartiteUndirectedSchema | tests/core/test_stellargraph.py:134-153 | Undirected with visited endpoints of both kinds, the schema is `{a: {(et, b)}, b: {(et, a)}}`. |
| Scenarios.HinIndexForTypeA | tests/core/test_stellargraph.py:194-198 | In the heterogeneous example, [0, 1, 2, 3] index to [0, 1, 2, 3] with the type inferred or named "A". |
| Scenarios.HinIndexForNodes | tests/core/test_stellargraph.py:199-200 | [4, 5, 6] index to [0, 1, 2]. |
| Scenarios.HinIndexForNodesTyped | tests/core/test_stellargraph.py:201-202 | [4, 5, 6] with type "B" index to [0, 1, 2]. |
| Scenarios.HinMixedIndex | tests/core/test_stellargraph.py:203-204 | [1, 2, 5] is a mixed-types error. |
| Scenarios.HinFeatureSizes | tests/core/test_stellargraph.py:224-226 | The feature sizes are exactly A: 4 and B: 2. |
| Scenarios.HinLookupA | tests/core/test_stellargraph.py:220-222 | Nodes 0 to 3 as "A" give their four stored vectors of width 4. |
| Scenarios.HinLookupPairB | tests/core/test_stellargraph.py:228-230 | Nodes 4 and 5 as "B" give their two stored vectors of width 2. |
| Scenarios.HinStoredB | tests/core/test_stellargraph.py:228-243 | The "B" rows of nodes 4 and 5 are their vectors; node 6 and a null id read as zeros of width 2. |
| Scenarios.HinMixedLookup | tests/core/test_stellargraph.py:232-234 | Looking up [1, 5] is a mixed-types error. |
| Scenarios.HinWrongTypeLookup | tests/core/test_stellargraph.py:236-266 | Type "A" for [4, 5], or for [None, 5, None], is a wrong-type error. |
| Scenarios.HinStoredOrMissing | tests/core/test_stellargraph.py:240-243 | [4, 5, 6] with type "B" gives the vectors of 4 and 5 and a zero row for 6. |
| Scenarios.HinNullIds | tests/core/test_stellargraph.py:254-257 | [None, 5, None] infers "B" and gives zero, node 5's vector, zero. |
| Scenarios.HinNullLookup | tests/core/test_stellargraph.py:268-270 | [None, None] with no type is the no-type error. |
| Scenarios.HinNodeTypes | tests/core/test_stellargraph.py:277-281 | The example's node types are {"A", "B"}. |
| Scenarios.HinEdgeTriples | tests/core/test_stellargraph.py:397-402 | The example's triples are exactly the five "R" edges and the "F" edge. |
| Scenarios.WeightedHinNeighbors | tests/core/test_stellargraph.py:603-606 | Directed or not, node 1's neighbours are the multiset {0, 0, 2, 3}. |
| Scenarios.WeightedHinNeighborWeights | tests/core/test_stellargraph.py:607-610 | With weights: {(0, 0.0), (0, 1.0), (2, 10.0), (3, 10.0)}. |
| Scenarios.WeightedHinFilteredNeighbors | tests/core/test_stellargraph.py:611-614 | Filtered to "AB": {(2, 10.0), (3, 10.0)}. |
| Scenarios.UnweightedHomNeighbors | tests/core/test_stellargraph.py:621-624 | Node 1's neighbours in the untyped example are {0, 0, 2, 3}. |
| Scenarios.UnweightedHomNeighborWeights | tests/core/test_stellargraph.py:625-628 | With weights, every weight is None. |
| Scenarios.UnweightedHomFilteredNeighbors | tests/core/test_stellargraph.py:629-631 | Filtered to "AB", which no edge has, the result is empty. |
| Scenarios.WeightedHinInNodes | tests/core/test_stellargraph.py:640-643 | Directed: `in_nodes(1)` is {0, 0}. |
| Scenarios.WeightedHinInNodesWeights | tests/core/test_stellargraph.py:644-646 | With weights: {(0, 0.0), (0, 1.0)}. |
| Scenarios.WeightedHinInNodesFiltered | tests/core/test_stellargraph.py:647-648 | Filtered to "AB": empty. |
| Scenarios.WeightedHinOutNodes | tests/core/test_stellargraph.py:662-664 | Directed: `out_nodes(1)` is {2, 3}. |
| Scenarios.WeightedHinOutNodesWeights | tests/core/test_stellargraph.py:665-667 | With weights: {(2, 10.0), (3, 10.0)}. |
| Scenarios.WeightedHinOutNodesFiltered | tests/core/test_stellargraph.py:668-670 | Filtered to "AA": empty. |
| Scenarios.UnweightedHomInNodes | tests/core/test_stellargraph.py:651-654 | `in_nodes(1)` is {0, 0}. |
| Scenarios.UnweightedHomInNodesWeights | tests/core/test_stellargraph.py:655-657 | With weights: {(0, None), (0, None)}. |
| Scenarios.UnweightedHomInNodesFiltered | tests/core/test_stellargraph.py:658-659 | Filtered to "AA": empty. |
| Scenarios.UnweightedHomOutNodes | tests/core/test_stellargraph.py:673-676 | `out_nodes(1)` is {2, 3}. |
| Scenarios.UnweightedHomOutNodesWeights | tests/core/test_stellargraph.py:677-679 | With weights: {(2, None), (3, None)}. |
| Scenarios.UnweightedHomOutNodesFiltered | tests/core/test_stellargraph.py:680-681 | Filtered to "AB": empty. |
| Scenarios.RatingsUndirectedSchema | tests/core/test_stellargraph.py:134-142 | In the undirected ratings graph, users reach movies and movies reach users by "rating": one pair each. |
| Scenarios.RatingsSampledSchema | tests/core/test_stellargraph.py:145-153 | Scanning only nodes 0 and 4 still gives movie and user one pair each. |
| Scenarios.RatingsDirectedSchema | tests/core/test_stellargraph.py:156-164 | In the directed ratings graph, users have one pair and movies have none. |
| BuildScenarios.MixedBuilds | tests/core/test_stellargraph.py:380-386 | Building the heterogeneous example from one iterable with width-5 "A" vectors and width-10 "B" vectors succeeds and keeps the example's node types. |
| BuildScenarios.MixedFeatureSizes | tests/core/test_stellargraph.py:386-394 | The built graph's feature sizes are exactly A: 5 and B: 10. |
| BuildScenarios.MixedLookupA | tests/core/test_stellargraph.py:388-390 | Nodes 0 to 3 as "A" give their supplied width-5 vectors. |
| BuildScenarios.MixedLookupB | tests/core/test_stellargraph.py:392-394 | Nodes 4 and 5 as "B" give their supplied width-10 vectors. |

## Left out

- Conversion from and to networkx graphs, and the `return_nx` variants: the model builds graphs from plain node, edge and feature lists (`Builder.Build`).
- Feature input as pandas data frames (lines 284-331) and as a dict from node type to an iterable of pairs (lines 348-378): only a single iterable of `(id, vector)` pairs is modelled. Concatenating the dict's iterables gives such an input, but the check that each key is the type of its nodes is not modelled. The single-iterable test on `example_graph_1` (lines 334-346) is covered by the general contracts, not by a scenario.
- `info()` and the graph's string form: they are text output only.
- Deprecated constructor arguments and attribute warnings, including `create_type_maps` (lines 167-187): these are messaging, not store behaviour.
- The benchmarks and the random-graph generator: they measure memory and time.
- Floating point: feature values and weights are exact reals, and `pytest.approx` comparisons become equalities. The tests compare only the first column of a feature matrix; the model's lemmas state whole rows.
- Numeric node ids only: the store accepts any hashable id, and the model uses integers.
- Ordering of neighbour results: the tests compare sorted lists, and the model states multiset equality. The sequence order in the model is edge order.
- The homogeneous `example_graph_2` lookups (lines 190-192, 208-213, 247-250, 274-275): `example_graph_2` is not part of this model. The general properties (`Features.NodeFeatures`, `Builder.BuiltNodeTypes`) cover them.
- The `[None, 6, None]` lookup at line 260: in that test every node of the example has a vector. In the model's example, node 6 has none and reads as zeros. `Features.NodeFeatures` states the general behaviour.
- Builder.BuiltEdgeTriples: the model lists the triples in input order and keeps each undirected edge as supplied. The tests only promise the set of triples (line 402). A store backed by an undirected graph library may report an undirected edge with its endpoints swapped or in another order; the model does not promise that normalisation.
- Karate-club graph in the homogeneous schema test: `Schema.UntypedGraphSchema` is stated for any untyped graph with at least one edge rather than for that data set.
- Concurrency: the store is immutable after construction, so there is none to model.

=== FILE: build_scenarios.dfy ===
/** Construction scenarios of the store's test suite: the heterogeneous
    example built from one iterable of (id, vector) pairs spanning both of
    its node types. */
module BuildScenarios {
  import opened Wrappers
  import opened Graph
  import opened Features
  import opened Builder
  import opened Scenarios

  /** The nodes of the heterogeneous example, in order, with their types. */
  const MixedNodes: seq<RawNode> :=
    [RawNode(0, Some("A")), RawNode(1, Some("A")), RawNode(2, Some("A")), RawNode(3, Some("A")),
     RawNode(4, Some("B")), RawNode(5, Some("B")), RawNode(6, Some("B"))]

  /** Its edges: "R" from the A nodes to the B nodes and one "F" edge. */
  const MixedEdges: seq<RawEdge> :=
    [RawEdge(0, 4, Some("R"), None), RawEdge(1, 4, Some("R"), None), RawEdge(1, 5, Some("R"), None),
     RawEdge(2, 4, Some("R"), None), RawEdge(3, 5, Some("R"), None), RawEdge(4, 5, Some("F"), None)]

  /** One vector per node, of width 5 for type A and 10 for type B, every
      entry equal to the node id. */
  const MixedFeatures: seq<FeaturePair> :=
    [(0, Vec(5, 0)), (1, Vec(5, 1)), (2, Vec(5, 2)), (3, Vec(5, 3)),
     (4, Vec(10, 4)), (5, Vec(10, 5)), (6, Vec(10, 6))]

  /** The supplied node list gives each node the example's type. */
  lemma MixedTypeMap()
    ensures Distinct(IdsOf(MixedNodes))
    ensures TypeMap(MixedNodes) == HinTypes
  {
    MixedIds(MixedNodes);
    HinOrderFits();
    TypeMapKeysAreIds(MixedNodes);
    TypeMapAtNodes(MixedNodes);
    MapOfNodes(TypeMap(MixedNodes), MixedNodes, HinTypes);
  }

  lemma MixedIds(nodes: seq<RawNode>)
    requires nodes == MixedNodes
    ensures IdsOf(nodes) == HinOrder
    ensures forall i :: 0 <= i < |nodes| ==>
      nodes[i].id in HinTypes && LabelOrDefault(nodes[i].nodeType) == HinTypes[nodes[i].id]
    ensures forall id :: id in HinTypes ==> exists i :: 0 <= i < |nodes| && nodes[i].id == id
  {
    assert forall id :: id in HinTypes ==> nodes[id].id == id;
  }

  /** Every key of the type map is some node's id. */
  lemma TypeMapKeysAreIds(nodes: seq<RawNode>)
    ensures forall id :: id in TypeMap(nodes) ==> exists i :: 0 <= i < |nodes| && nodes[i].id == id
  {
    forall id | id in TypeMap(nodes) ensures exists i :: 0 <= i < |nodes| && nodes[i].id == id {
      var i := NodeAt(nodes, id);
    }
  }

  /** A key of the type map is the id of some node. */
  lemma NodeAt(nodes: seq<RawNode>, id: NodeId) returns (i: nat)
    requires id in TypeMap(nodes)
    ensures i < |nodes| && nodes[i].id == id
  {
    var ids := IdsOf(nodes);
    assert id in ids;
    i :| 0 <= i < |ids| && ids[i] == id;
  }

  /** With distinct ids, each node's id maps to its own label. */
  lemma TypeMapAtNodes(nodes: seq<RawNode>)
    requires Distinct(IdsOf(nodes))
    ensures forall i :: 0 <= i < |nodes| ==>
      nodes[i].id in TypeMap(nodes) && TypeMap(nodes)[nodes[i].id] == LabelOrDefault(nodes[i].nodeType)
  {
    forall i | 0 <= i < |nodes| ensures nodes[i].id in TypeMap(nodes) {
      assert IdsOf(nodes)[i] == nodes[i].id;
    }
  }

  /** A map whose keys are exactly the node ids, each bound to its node's
      label, is the map `nt` that gives every node its label and has no other
      key. */
  lemma MapOfNodes(m: map<NodeId, Label>, nodes: seq<RawNode>, nt: map<NodeId, Label>)
    requires forall id :: id in m ==> exists i :: 0 <= i < |nodes| && nodes[i].id == id
    requires forall i :: 0 <= i < |nodes| ==>
      nodes[i].id in m && m[nodes[i].id] == LabelOrDefault(nodes[i].nodeType)
    requires forall i :: 0 <= i < |nodes| ==>
      nodes[i].id in nt && LabelOrDefault(nodes[i].nodeType) == nt[nodes[i].id]
    requires forall id :: id in nt ==> exists i :: 0 <= i < |nodes| && nodes[i].id == id
    ensures m == nt
  {
    forall id | id in m ensures id in nt && m[id] == nt[id] {
      var i :| 0 <= i < |nodes| && nodes[i].id == id;
    }
    forall id | id in nt ensures id in m {
      var i :| 0 <= i < |nodes| && nodes[i].id == id;
    }
  }

  /** The input is well formed: edges join nodes, every vector names a node,
      and the two types' vectors are 5 and 10 wide throughout. */
  lemma MixedInputValid(nt: map<NodeId, Label>)
    requires nt == HinTypes
    ensures EndpointsKnown(nt, MixedEdges)
    ensures FeaturesKnown(nt, MixedFeatures)
    ensures forall i :: 0 <= i < 7 ==> nt[MixedFeatures[i].0] == (if i < 4 then "A" else "B")
    ensures forall i :: 0 <= i < 7 ==> |MixedFeatures[i].1| == (if i < 4 then 5 else 10)
  {
  }

  /** Same type, same width: the widths agree within each type. */
  lemma MixedWidthsAgree(nt: map<NodeId, Label>)
    requires nt == HinTypes
    ensures FeaturesKnown(nt, MixedFeatures) && WidthsAgree(nt, MixedFeatures)
  {
    MixedInputValid(nt);
  }

  /** Building the example from the mixed iterable succeeds and keeps the
      example's node types. */
  lemma MixedBuilds()
    ensures Build(MixedNodes, MixedEdges, false, MixedFeatures).Ok?
    ensures Build(MixedNodes, MixedEdges, false, MixedFeatures).value.nodeType == HinTypes
  {
    MixedTypeMap();
    MixedInputValid(HinTypes);
    MixedWidthsAgree(HinTypes);
  }

  /** The built graph has feature sizes A: 5 and B: 10. */
  lemma MixedFeatureSizes()
    ensures Build(MixedNodes, MixedEdges, false, MixedFeatures).Ok?
    ensures NodeFeatureSizes(Build(MixedNodes, MixedEdges, false, MixedFeatures).value) == map["A" := 5, "B" := 10]
  {
    MixedBuilds();
    var g := Build(MixedNodes, MixedEdges, false, MixedFeatures).value;
    BuiltFeatureSizes(MixedNodes, MixedEdges, false, MixedFeatures);
    MixedInputValid(g.nodeType);
    HinLabels();
    SizesOfTwo(NodeFeatureSizes(g), g, MixedFeatures);
  }

  /** A size map over types A and B read off one A vector of width 5 and one
      B vector of width 10. */
  lemma SizesOfTwo(sizes: map<Label, nat>, g: Graph, fs: seq<FeaturePair>)
    requires sizes.Keys == NodeTypes(g) && NodeTypes(g) == {"A", "B"}
    requires |fs| == 7 && fs[0].0 in g.nodeType && fs[4].0 in g.nodeType
    requires g.nodeType[fs[0].0] == "A" && g.nodeType[fs[4].0] == "B"
    requires sizes[g.nodeType[fs[0].0]] == |fs[0].1| == 5
    requires sizes[g.nodeType[fs[4].0]] == |fs[4].1| == 10
    ensures sizes == map["A" := 5, "B" := 10]
  {
  }

  /** Every node of the built graph reads back the vector supplied for it. */
  lemma MixedStored(id: NodeId)
    requires 0 <= id < 7
    ensures Build(MixedNodes, MixedEdges, false, MixedFeatures).Ok?
    ensures var g := Build(MixedNodes, MixedEdges, false, MixedFeatures).value;
      id in g.nodeType && StoredOrZero(g, g.nodeType[id], id) == MixedFeatures[id].1
  {
    MixedBuilds();
    MixedPairs(MixedFeatures, id);
    LastSupplied(MixedNodes, MixedEdges, false, MixedFeatures, id, id);
  }

  /** Pair `id` of the mixed iterable is the only one for node `id`. */
  lemma MixedPairs(fs: seq<FeaturePair>, id: NodeId)
    requires fs == MixedFeatures && 0 <= id < 7
    ensures id < |fs| && fs[id].0 == id && forall j :: id < j < |fs| ==> fs[j].0 != id
    ensures fs[id].1 == Vec(if id < 4 then 5 else 10, id)
  {
  }

  /** The last pair supplied for a node is what the built graph stores for it. */
  lemma LastSupplied(nodes: seq<RawNode>, edges: seq<RawEdge>, directed: bool, fs: seq<FeaturePair>,
                     id: NodeId, i: nat)
    requires Build(nodes, edges, directed, fs).Ok?
    requires id in Build(nodes, edges, directed, fs).value.nodeType
    requires i < |fs| && fs[i].0 == id && forall j :: i < j < |fs| ==> fs[j].0 != id
    ensures var g := Build(nodes, edges, directed, fs).value;
      StoredOrZero(g, g.nodeType[id], id) == fs[i].1
  {
    BuiltStoredVectors(nodes, edges, directed, fs, id);
  }

  /** The built graph's rows for the example's nodes are the supplied vectors. */
  lemma MixedStoredAll(g: Graph)
    requires Build(MixedNodes, MixedEdges, false, MixedFeatures) == Ok(g)
    ensures Valid(g)
    ensures forall k :: 0 <= k < 4 ==> RowFor(g, "A", Some(k)) == Vec(5, k)
    ensures forall k :: 4 <= k < 7 ==> RowFor(g, "B", Some(k)) == Vec(10, k)
  {
    forall k | 0 <= k < 4 ensures RowFor(g, "A", Some(k)) == Vec(5, k) {
      MixedRow(g, k);
    }
    forall k | 4 <= k < 7 ensures RowFor(g, "B", Some(k)) == Vec(10, k) {
      MixedRow(g, k);
    }
  }

  /** Node `k` of the built graph reads back the vector supplied for it. */
  lemma MixedRow(g: Graph, k: NodeId)
    requires Build(MixedNodes, MixedEdges, false, MixedFeatures) == Ok(g) && 0 <= k < 7
    ensures Valid(g)
    ensures RowFor(g, if k < 4 then "A" else "B", Some(k)) == Vec(if k < 4 then 5 else 10, k)
  {
    MixedBuilds();
    MixedStored(k);
    MixedPairs(MixedFeatures, k);
    HinTypeOf(g.nodeType, k);
  }

  /** The type of node `k` of the example. */
  lemma HinTypeOf(nt: map<NodeId, Label>, k: NodeId)
    requires nt == HinTypes && 0 <= k < 7
    ensures k in nt && nt[k] == if k < 4 then "A" else "B"
  {
  }

  /** Looking up nodes 0 to 3 as "A" in the built graph gives their width-5
      vectors. */
  lemma MixedLookupA()
    ensures Build(MixedNodes, MixedEdges, false, MixedFeatures).Ok?
    ensures NodeFeatures(Build(MixedNodes, MixedEdges, false, MixedFeatures).value,
                         [Some(0), Some(1), Some(2), Some(3)], Some("A")) ==
      Ok([Vec(5, 0), Vec(5, 1), Vec(5, 2), Vec(5, 3)])
  {
    MixedBuilds();
    var g := Build(MixedNodes, MixedEdges, false, MixedFeatures).value;
    MixedStoredAll(g);
    assert g.nodeType == HinTypes;
    LookupAOn(g);
  }

  /** Looking up nodes 4 and 5 as "B" in the built graph gives their width-10
      vectors. */
  lemma MixedLookupB()
    ensures Build(MixedNodes, MixedEdges, false, MixedFeatures).Ok?
    ensures NodeFeatures(Build(MixedNodes, MixedEdges, false, MixedFeatures).value,
                         [Some(4), Some(5)], Some("B")) ==
      Ok([Vec(10, 4), Vec(10, 5)])
  {
    MixedBuilds();
    var g := Build(MixedNodes, MixedEdges, false, MixedFeatures).value;
    MixedStoredAll(g);
    assert g.nodeType == HinTypes;
    LookupBOn(g);
  }

  lemma LookupAOn(g: Graph)
    requires Valid(g) && g.nodeType == HinTypes
    requires forall k :: 0 <= k < 4 ==> RowFor(g, "A", Some(k)) == Vec(5, k)
    ensures NodeFeatures(g, [Some(0), Some(1), Some(2), Some(3)], Some("A")) ==
      Ok([Vec(5, 0), Vec(5, 1), Vec(5, 2), Vec(5, 3)])
  {
    ResolveAOn(g, [Some(0), Some(1), Some(2), Some(3)]);
    FourRows(g, [Some(0), Some(1), Some(2), Some(3)], Some("A"), "A", Vec(5, 0), Vec(5, 1), Vec(5, 2), Vec(5, 3));
  }

  lemma LookupBOn(g: Graph)
    requires Valid(g) && g.nodeType == HinTypes
    requires forall k :: 4 <= k < 7 ==> RowFor(g, "B", Some(k)) == Vec(10, k)
    ensures NodeFeatures(g, [Some(4), Some(5)], Some("B")) == Ok([Vec(10, 4), Vec(10, 5)])
  {
    ResolvePairBOn(g, [Some(4), Some(5)]);
    TwoRows(g, [Some(4), Some(5)], Some("B"), "B", Vec(10, 4), Vec(10, 5));
  }
}

=== FILE: builder.dfy ===
/** Construction of the immutable graph from raw input: node and edge type
    labels default to "default", every edge must join known nodes, and the
    feature vectors (one iterable of (id, vector) pairs that may span several
    node types) are grouped by the type of their node, all vectors of one type
    sharing one width. */
module Builder {
  import opened Wrappers
  import opened Graph
  import opened Features

  /** A node as supplied, with its type label if it has one. */
  datatype RawNode = RawNode(id: NodeId, nodeType: Option<Label>)

  /** An edge as supplied, with its type label and weight if it has them. */
  datatype RawEdge = RawEdge(src: NodeId, dst: NodeId, edgeType: Option<Label>, weight: Option<real>)

  type FeaturePair = (NodeId, seq<real>)

  /** The label an element gets: its own, or the shared default. */
  function LabelOrDefault(l: Option<Label>): (r: Label)
    ensures l.Some? ==> r == l.value
    ensures l.None? ==> r == DefaultLabel
  {
    match l
    case Some(x) => x
    case None => DefaultLabel
  }

  function IdsOf(nodes: seq<RawNode>): (r: seq<NodeId>)
    ensures |r| == |nodes|
    ensures forall i :: 0 <= i < |nodes| ==> r[i] == nodes[i].id
  {
    seq(|nodes|, i requires 0 <= i < |nodes| => nodes[i].id)
  }

  /** An id that occurs twice, if any. */
  function FirstDuplicate(s: seq<NodeId>): (r: Option<NodeId>)
    ensures r.None? <==> Distinct(s)
    ensures r.Some? ==> exists i, j :: 0 <= i < j < |s| && s[i] == r.value && s[j] == r.value
  {
    if |s| == 0 then None
    else if s[0] in s[1..] then
      assert exists j :: 0 < j < |s| && s[j] == s[0] by {
        var k :| 0 <= k < |s[1..]| && s[1..][k] == s[0];
        assert s[k + 1] == s[0];
      }
      Some(s[0])
    else
      var r := FirstDuplicate(s[1..]);
      assert forall i :: 1 <= i < |s| ==> s[i] == s[1..][i - 1];
      assert r.Some? ==> exists i, j :: 0 <= i < j < |s| && s[i] == r.value && s[j] == r.value by {
        if r.Some? {
          var i, j :| 0 <= i < j < |s[1..]| && s[1..][i] == r.value && s[1..][j] == r.value;
          assert s[i + 1] == r.value && s[j + 1] == r.value;
        }
      }
      r
  }

  /** Each node's label; a later node wins over an earlier one with the same id. */
  function TypeMap(nodes: seq<RawNode>): (m: map<NodeId, Label>)
    ensures forall id :: id in m <==> id in IdsOf(nodes)
    ensures Distinct(IdsOf(nodes)) ==>
      forall i :: 0 <= i < |nodes| ==> m[nodes[i].id] == LabelOrDefault(nodes[i].nodeType)
  {
    if |nodes| == 0 then map[]
    else
      var init := nodes[..|nodes| - 1];
      var last := nodes[|nodes| - 1];
      var m := TypeMap(init);
      IdsSnoc(nodes);
      var r := m[last.id := LabelOrDefault(last.nodeType)];
      assert Distinct(IdsOf(nodes)) ==>
        forall i :: 0 <= i < |nodes| ==> r[nodes[i].id] == LabelOrDefault(nodes[i].nodeType) by {
        if Distinct(IdsOf(nodes)) {
          forall i | 0 <= i < |nodes| ensures r[nodes[i].id] == LabelOrDefault(nodes[i].nodeType) {
            if i < |init| {
              assert IdsOf(nodes)[i] != IdsOf(nodes)[|init|];
              assert nodes[i] == init[i];
            }
          }
        }
      }
      r
  }

  /** The ids of all nodes are the ids of all but the last, then the last's. */
  lemma IdsSnoc(nodes: seq<RawNode>)
    requires |nodes| > 0
    ensures IdsOf(nodes) == IdsOf(nodes[..|nodes| - 1]) + [nodes[|nodes| - 1].id]
    ensures Distinct(IdsOf(nodes)) ==> Distinct(IdsOf(nodes[..|nodes| - 1]))
  {
    var init := nodes[..|nodes| - 1];
    assert IdsOf(nodes) == IdsOf(init) + [nodes[|nodes| - 1].id];
  }

  /** The edge as stored: its label defaulted. */
  function ToEdge(e: RawEdge): Edge {
    Edge(e.src, e.dst, LabelOrDefault(e.edgeType), e.weight)
  }

  function ToEdges(edges: seq<RawEdge>): (r: seq<Edge>)
    ensures |r| == |edges|
    ensures forall i :: 0 <= i < |edges| ==> r[i] == ToEdge(edges[i])
  {
    seq(|edges|, i requires 0 <= i < |edges| => ToEdge(edges[i]))
  }

  /** Both endpoints of every edge are nodes. */
  predicate EndpointsKnown(nodeType: map<NodeId, Label>, edges: seq<RawEdge>) {
    forall i :: 0 <= i < |edges| ==> edges[i].src in nodeType && edges[i].dst in nodeType
  }

  /** The first edge with an endpoint that is not a node, if any. */
  function FirstDangling(nodeType: map<NodeId, Label>, edges: seq<RawEdge>): (r: Option<RawEdge>)
    ensures r.None? <==> EndpointsKnown(nodeType, edges)
    ensures r.Some? ==> r.value in edges && (r.value.src !in nodeType || r.value.dst !in nodeType)
  {
    if |edges| == 0 then None
    else if edges[0].src !in nodeType || edges[0].dst !in nodeType then Some(edges[0])
    else
      var r := FirstDangling(nodeType, edges[1..]);
      assert forall i :: 1 <= i < |edges| ==> edges[i] == edges[1..][i - 1];
      r
  }

  /** The first feature pair naming an id that is not a node, if any. */
  function FirstStray(nodeType: map<NodeId, Label>, fs: seq<FeaturePair>): (r: Option<NodeId>)
    ensures r.None? <==> FeaturesKnown(nodeType, fs)
    ensures r.Some? ==> r.value !in nodeType && exists i :: 0 <= i < |fs| && fs[i].0 == r.value
  {
    if |fs| == 0 then None
    else if fs[0].0 !in nodeType then Some(fs[0].0)
    else
      var r := FirstStray(nodeType, fs[1..]);
      assert forall i :: 1 <= i < |fs| ==> fs[i] == fs[1..][i - 1];
      r
  }

  predicate FeaturesKnown(nodeType: map<NodeId, Label>, fs: seq<FeaturePair>) {
    forall i :: 0 <= i < |fs| ==> fs[i].0 in nodeType
  }

  /** All vectors supplied for nodes of one type have the same length. */
  ghost predicate WidthsAgree(nodeType: map<NodeId, Label>, fs: seq<FeaturePair>)
    requires FeaturesKnown(nodeType, fs)
  {
    forall i, j :: 0 <= i < |fs| && 0 <= j < |fs| && nodeType[fs[i].0] == nodeType[fs[j].0] ==>
      |fs[i].1| == |fs[j].1|
  }

  /** The width of every type that received vectors, or the first type whose
      vectors disagree. */
  function Widths(nodeType: map<NodeId, Label>, fs: seq<FeaturePair>): (r: Result<map<Label, nat>, Error>)
    requires FeaturesKnown(nodeType, fs)
    ensures r.Ok? <==> WidthsAgree(nodeType, fs)
    ensures r.Err? ==> r.error.WidthMismatch?
    ensures r.Ok? ==> forall t :: t in r.value <==> exists i :: 0 <= i < |fs| && nodeType[fs[i].0] == t
    ensures r.Ok? ==> forall i :: 0 <= i < |fs| ==> r.value[nodeType[fs[i].0]] == |fs[i].1|
  {
    if |fs| == 0 then Ok(map[])
    else
      var init := fs[..|fs| - 1];
      var last := fs[|fs| - 1];
      assert fs == init + [last];
      var t := nodeType[last.0];
      match Widths(nodeType, init)
      case Err(e) =>
        AgreePrefix(nodeType, init, last);
        Err(e)
      case Ok(m) =>
        if t in m && m[t] != |last.1| then
          MismatchBreaks(nodeType, init, last, m);
          Err(WidthMismatch(t))
        else
          WidthsStep(nodeType, init, last, m);
          Ok(m[t := |last.1|])
  }

  /** A last vector whose width differs from the one recorded for its type
      breaks agreement. */
  lemma MismatchBreaks(nodeType: map<NodeId, Label>, init: seq<FeaturePair>, last: FeaturePair, m: map<Label, nat>)
    requires FeaturesKnown(nodeType, init + [last])
    requires FeaturesKnown(nodeType, init)
    requires forall t :: t in m <==> exists i :: 0 <= i < |init| && nodeType[init[i].0] == t
    requires forall i :: 0 <= i < |init| ==> m[nodeType[init[i].0]] == |init[i].1|
    requires last.0 in nodeType && nodeType[last.0] in m && m[nodeType[last.0]] != |last.1|
    ensures !WidthsAgree(nodeType, init + [last])
  {
    var fs := init + [last];
    var t := nodeType[last.0];
    var j :| 0 <= j < |init| && nodeType[init[j].0] == t;
    assert fs[j] == init[j] && fs[|init|] == last;
    assert nodeType[fs[j].0] == nodeType[fs[|init|].0] && |fs[j].1| != |fs[|init|].1|;
  }

  /** Recording the last pair's width extends the table for `init` to one for
      `init + [last]`. */
  lemma WidthsStep(nodeType: map<NodeId, Label>, init: seq<FeaturePair>, last: FeaturePair, m: map<Label, nat>)
    requires FeaturesKnown(nodeType, init + [last])
    requires FeaturesKnown(nodeType, init) && WidthsAgree(nodeType, init) && last.0 in nodeType
    requires forall t :: t in m <==> exists i :: 0 <= i < |init| && nodeType[init[i].0] == t
    requires forall i :: 0 <= i < |init| ==> m[nodeType[init[i].0]] == |init[i].1|
    requires nodeType[last.0] in m ==> m[nodeType[last.0]] == |last.1|
    ensures WidthsAgree(nodeType, init + [last])
    ensures var fs, r := init + [last], m[nodeType[last.0] := |last.1|];
      && (forall t :: t in r <==> exists i :: 0 <= i < |fs| && nodeType[fs[i].0] == t)
      && (forall i :: 0 <= i < |fs| ==> r[nodeType[fs[i].0]] == |fs[i].1|)
  {
    var fs := init + [last];
    var r := m[nodeType[last.0] := |last.1|];
    AgreeExtend(nodeType, init, last, m);
    assert forall i :: 0 <= i < |init| ==> init[i] == fs[i];
    assert fs[|init|] == last;
    forall t | t in r ensures exists i :: 0 <= i < |fs| && nodeType[fs[i].0] == t {
      if t != nodeType[last.0] {
        var i :| 0 <= i < |init| && nodeType[init[i].0] == t;
        assert nodeType[fs[i].0] == t;
      }
    }
  }

  /** Agreement survives dropping the last pair. */
  lemma AgreePrefix(nodeType: map<NodeId, Label>, init: seq<FeaturePair>, last: FeaturePair)
    requires FeaturesKnown(nodeType, init + [last])
    ensures FeaturesKnown(nodeType, init)
    ensures WidthsAgree(nodeType, init + [last]) ==> WidthsAgree(nodeType, init)
  {
    var fs := init + [last];
    assert forall i :: 0 <= i < |init| ==> init[i] == fs[i];
  }

  /** Agreement survives adding a pair whose vector has its type's width. */
  lemma AgreeExtend(nodeType: map<NodeId, Label>, init: seq<FeaturePair>, last: FeaturePair, m: map<Label, nat>)
    requires FeaturesKnown(nodeType, init + [last])
    requires FeaturesKnown(nodeType, init) && WidthsAgree(nodeType, init) && last.0 in nodeType
    requires forall i :: 0 <= i < |init| ==> nodeType[init[i].0] in m && m[nodeType[init[i].0]] == |init[i].1|
    requires nodeType[last.0] in m ==> m[nodeType[last.0]] == |last.1|
    ensures WidthsAgree(nodeType, init + [last])
  {
    var fs := init + [last];
    assert forall i :: 0 <= i < |init| ==> init[i] == fs[i];
    assert fs[|init|] == last;
  }

  /** The vectors supplied for the nodes of type `t`; for an id supplied more
      than once, the last vector wins. */
  function Vectors(nodeType: map<NodeId, Label>, fs: seq<FeaturePair>, t: Label): (v: map<NodeId, seq<real>>)
    requires FeaturesKnown(nodeType, fs)
    ensures forall id :: id in v ==> id in nodeType && nodeType[id] == t
  {
    if |fs| == 0 then map[]
    else
      var last := fs[|fs| - 1];
      var m := Vectors(nodeType, fs[..|fs| - 1], t);
      if nodeType[last.0] == t then m[last.0 := last.1] else m
  }

  lemma {:induction false} VectorsHoldSupplied(nodeType: map<NodeId, Label>, fs: seq<FeaturePair>, t: Label, i: nat)
    requires FeaturesKnown(nodeType, fs)
    requires i < |fs| && nodeType[fs[i].0] == t
    ensures fs[i].0 in Vectors(nodeType, fs, t)
    ensures (forall j :: i < j < |fs| ==> fs[j].0 != fs[i].0) ==> Vectors(nodeType, fs, t)[fs[i].0] == fs[i].1
  {
    var init := fs[..|fs| - 1];
    if i < |fs| - 1 {
      assert init[i] == fs[i];
      assert forall j :: i < j < |init| ==> init[j] == fs[j];
      VectorsHoldSupplied(nodeType, init, t, i);
    }
  }

  lemma {:induction false} VectorsOnlySupplied(nodeType: map<NodeId, Label>, fs: seq<FeaturePair>, t: Label, id: NodeId)
    requires FeaturesKnown(nodeType, fs)
    requires id in Vectors(nodeType, fs, t)
    ensures exists i :: 0 <= i < |fs| && fs[i] == (id, Vectors(nodeType, fs, t)[id])
  {
    var init := fs[..|fs| - 1];
    var last := fs[|fs| - 1];
    if !(nodeType[last.0] == t && last.0 == id) {
      VectorsOnlySupplied(nodeType, init, t, id);
      var i :| 0 <= i < |init| && init[i] == (id, Vectors(nodeType, init, t)[id]);
      assert fs[i] == init[i];
    } else {
      assert fs[|fs| - 1] == (id, Vectors(nodeType, fs, t)[id]);
    }
  }

  /** The per-type feature tables: each type that received vectors, with its width. */
  function Tables(nodeType: map<NodeId, Label>, fs: seq<FeaturePair>, widths: map<Label, nat>)
    : (r: map<Label, TypeFeatures>)
    requires FeaturesKnown(nodeType, fs) && Widths(nodeType, fs) == Ok(widths)
    ensures FeaturesFit(nodeType, r)
    ensures r.Keys == widths.Keys
    ensures forall t :: t in r ==> r[t] == TypeFeatures(widths[t], Vectors(nodeType, fs, t))
  {
    var r := map t | t in widths :: TypeFeatures(widths[t], Vectors(nodeType, fs, t));
    forall t | t in r ensures t in LabelsOf(nodeType) && TableFits(nodeType, t, r[t]) {
      var i :| 0 <= i < |fs| && nodeType[fs[i].0] == t;
      assert fs[i].0 in nodeType;
      forall id | id in r[t].vectors ensures |r[t].vectors[id]| == r[t].width {
        VectorsOnlySupplied(nodeType, fs, t, id);
      }
    }
    r
  }

  /** The graph from input that passed every check. */
  function Assemble(nodes: seq<RawNode>, edges: seq<RawEdge>, directed: bool, fs: seq<FeaturePair>,
                    widths: map<Label, nat>): (g: Graph)
    requires Distinct(IdsOf(nodes))
    requires EndpointsKnown(TypeMap(nodes), edges)
    requires FeaturesKnown(TypeMap(nodes), fs) && Widths(TypeMap(nodes), fs) == Ok(widths)
    ensures Valid(g)
    ensures g.order == IdsOf(nodes) && g.directed == directed
    ensures g.nodeType == TypeMap(nodes) && g.edges == ToEdges(edges)
    ensures g.features.Keys == widths.Keys
    ensures forall t :: t in g.features ==> g.features[t] == TypeFeatures(widths[t], Vectors(g.nodeType, fs, t))
  {
    var ids := IdsOf(nodes);
    var nt := TypeMap(nodes);
    assert forall i :: 0 <= i < |ids| ==> ids[i] in nt;
    Graph(ids, nt, ToEdges(edges), directed, Tables(nt, fs, widths))
  }

  /** The checks made before anything is stored: unique ids, known edge
      endpoints, features only for known nodes, one width per node type.
      On success, the width of each node type that has features. */
  function Validate(nodes: seq<RawNode>, edges: seq<RawEdge>, fs: seq<FeaturePair>)
    : (r: Result<map<Label, nat>, Error>)
    ensures r.Err? <==>
      || !Distinct(IdsOf(nodes))
      || !EndpointsKnown(TypeMap(nodes), edges)
      || !FeaturesKnown(TypeMap(nodes), fs)
      || !WidthsAgree(TypeMap(nodes), fs)
    ensures r.Err? ==> Kind(r.error) == ConstructionError || r.error.WidthMismatch?
    ensures r.Ok? ==> FeaturesKnown(TypeMap(nodes), fs) && Widths(TypeMap(nodes), fs) == Ok(r.value)
    ensures !Distinct(IdsOf(nodes)) ==> (r.Err? && r.error.DuplicateNode? &&
      exists i, j :: 0 <= i < j < |nodes| && nodes[i].id == r.error.id && nodes[j].id == r.error.id)
    ensures Distinct(IdsOf(nodes)) ==> r == ValidateTyped(TypeMap(nodes), edges, fs)
  {
    match FirstDuplicate(IdsOf(nodes))
    case Some(id) => Err(DuplicateNode(id))
    case None => ValidateTyped(TypeMap(nodes), edges, fs)
  }

  /** The checks that need the node types: known edge endpoints, features only
      for known nodes, one width per node type. */
  function ValidateTyped(nt: map<NodeId, Label>, edges: seq<RawEdge>, fs: seq<FeaturePair>)
    : (r: Result<map<Label, nat>, Error>)
    ensures r.Err? <==>
      || !EndpointsKnown(nt, edges)
      || !FeaturesKnown(nt, fs)
      || !WidthsAgree(nt, fs)
    ensures r.Err? ==> Kind(r.error) == ConstructionError || r.error.WidthMismatch?
    ensures r.Ok? ==> FeaturesKnown(nt, fs) && Widths(nt, fs) == Ok(r.value)
    ensures !EndpointsKnown(nt, edges) ==>
      r.Err? && r.error.DanglingEdge? && (r.error.src !in nt || r.error.dst !in nt)
    ensures EndpointsKnown(nt, edges) && !FeaturesKnown(nt, fs) ==>
      r.Err? && r.error.FeatureForUnknownNode? && r.error.id !in nt &&
      exists i :: 0 <= i < |fs| && fs[i].0 == r.error.id
    ensures EndpointsKnown(nt, edges) && FeaturesKnown(nt, fs) && !WidthsAgree(nt, fs) ==>
      r.Err? && r.error.WidthMismatch?
  {
    match FirstDangling(nt, edges)
    case Some(e) => Err(DanglingEdge(e.src, e.dst))
    case None =>
      match FirstStray(nt, fs)
      case Some(id) => Err(FeatureForUnknownNode(id))
      case None => Widths(nt, fs)
  }

  /** Builds the graph, or reports why the input cannot make one. */
  function Build(nodes: seq<RawNode>, edges: seq<RawEdge>, directed: bool, fs: seq<FeaturePair>)
    : (r: Result<Graph, Error>)
    ensures r.Ok? ==> Valid(r.value)
    ensures r.Err? <==>
      || !Distinct(IdsOf(nodes))
      || !EndpointsKnown(TypeMap(nodes), edges)
      || !FeaturesKnown(TypeMap(nodes), fs)
      || !WidthsAgree(TypeMap(nodes), fs)
    ensures r.Err? ==> Kind(r.error) == ConstructionError || r.error.WidthMismatch?
    ensures r.Ok? ==> r.value.order == IdsOf(nodes) && r.value.directed == directed
    ensures r.Ok? ==> r.value.nodeType == TypeMap(nodes)
    ensures r.Ok? ==> r.value.edges == ToEdges(edges)
    ensures r.Ok? ==> Widths(r.value.nodeType, fs).Ok?
    ensures r.Ok? ==> forall t :: t in r.value.features <==> t in Widths(r.value.nodeType, fs).value
    ensures r.Ok? ==> forall t :: t in r.value.features ==>
      r.value.features[t] == TypeFeatures(Widths(r.value.nodeType, fs).value[t], Vectors(r.value.nodeType, fs, t))
    ensures !Distinct(IdsOf(nodes)) ==> (r.Err? && r.error.DuplicateNode? &&
      exists i, j :: 0 <= i < j < |nodes| && nodes[i].id == r.error.id && nodes[j].id == r.error.id)
    ensures Distinct(IdsOf(nodes)) && !EndpointsKnown(TypeMap(nodes), edges) ==> r.Err? && r.error.DanglingEdge?
    ensures Distinct(IdsOf(nodes)) && EndpointsKnown(TypeMap(nodes), edges) && !FeaturesKnown(TypeMap(nodes), fs) ==>
      r.Err? && r.error.FeatureForUnknownNode?
    ensures (Distinct(IdsOf(nodes)) && EndpointsKnown(TypeMap(nodes), edges) && FeaturesKnown(TypeMap(nodes), fs) &&
             !WidthsAgree(TypeMap(nodes), fs)) ==> r.Err? && r.error.WidthMismatch?
  {
    match Validate(nodes, edges, fs)
    case Err(e) => Err(e)
    case Ok(widths) => Ok(Assemble(nodes, edges, directed, fs, widths))
  }

  /** `node_types`: the labels of the supplied nodes, with "default" for untyped ones. */
  lemma BuiltNodeTypes(nodes: seq<RawNode>, edges: seq<RawEdge>, directed: bool, fs: seq<FeaturePair>)
    requires Build(nodes, edges, directed, fs).Ok?
    ensures NodeTypes(Build(nodes, edges, directed, fs).value) ==
      set i | 0 <= i < |nodes| :: LabelOrDefault(nodes[i].nodeType)
  {
    var g := Build(nodes, edges, directed, fs).value;
    var want := set i | 0 <= i < |nodes| :: LabelOrDefault(nodes[i].nodeType);
    forall l | l in NodeTypes(g) ensures l in want {
      var id :| id in g.nodeType && g.nodeType[id] == l;
      var i :| 0 <= i < |nodes| && IdsOf(nodes)[i] == id;
    }
    forall l | l in want ensures l in NodeTypes(g) {
      var i :| 0 <= i < |nodes| && LabelOrDefault(nodes[i].nodeType) == l;
      assert nodes[i].id in g.nodeType;
    }
  }

  /** `edges(triple=True)`: every supplied edge, in order, as (source,
      destination, type) with "default" for untyped ones. */
  lemma BuiltEdgeTriples(nodes: seq<RawNode>, edges: seq<RawEdge>, directed: bool, fs: seq<FeaturePair>)
    requires Build(nodes, edges, directed, fs).Ok?
    ensures EdgeTriples(Build(nodes, edges, directed, fs).value) ==
      seq(|edges|, i requires 0 <= i < |edges| => (edges[i].src, edges[i].dst, LabelOrDefault(edges[i].edgeType)))
  {
  }

  /** `node_feature_sizes`: a type's width is the length of the vectors supplied
      for its nodes, whatever other types use; a type with none has width 0. */
  lemma BuiltFeatureSizes(nodes: seq<RawNode>, edges: seq<RawEdge>, directed: bool, fs: seq<FeaturePair>)
    requires Build(nodes, edges, directed, fs).Ok?
    ensures var g := Build(nodes, edges, directed, fs).value;
      && (forall i :: 0 <= i < |fs| ==> NodeFeatureSizes(g)[g.nodeType[fs[i].0]] == |fs[i].1|)
      && (forall t :: t in NodeTypes(g) && (forall i :: 0 <= i < |fs| ==> g.nodeType[fs[i].0] != t) ==>
            NodeFeatureSizes(g)[t] == 0)
  {
    var g := Build(nodes, edges, directed, fs).value;
    SizesFromWidths(g, fs, Widths(g.nodeType, fs).value);
  }

  /** A graph whose feature widths are the ones `Widths` found reports them as
      its feature sizes, and 0 for types without vectors. */
  lemma SizesFromWidths(g: Graph, fs: seq<FeaturePair>, widths: map<Label, nat>)
    requires Valid(g) && FeaturesKnown(g.nodeType, fs)
    requires g.features.Keys == widths.Keys
    requires forall t :: t in g.features ==> g.features[t].width == widths[t]
    requires forall t :: t in widths <==> exists i :: 0 <= i < |fs| && g.nodeType[fs[i].0] == t
    requires forall i :: 0 <= i < |fs| ==> widths[g.nodeType[fs[i].0]] == |fs[i].1|
    ensures forall i :: 0 <= i < |fs| ==> NodeFeatureSizes(g)[g.nodeType[fs[i].0]] == |fs[i].1|
    ensures forall t :: t in NodeTypes(g) && (forall i :: 0 <= i < |fs| ==> g.nodeType[fs[i].0] != t) ==>
      NodeFeatureSizes(g)[t] == 0
  {
  }

  /** The vector a lookup returns for a node is the last one supplied for it,
      or the zero vector of its type's width if none was. */
  lemma BuiltStoredVectors(nodes: seq<RawNode>, edges: seq<RawEdge>, directed: bool, fs: seq<FeaturePair>, id: NodeId)
    requires Build(nodes, edges, directed, fs).Ok?
    ensures var g := Build(nodes, edges, directed, fs).value;
      id in g.nodeType ==>
      && (forall i :: 0 <= i < |fs| && fs[i].0 == id && (forall j :: i < j < |fs| ==> fs[j].0 != id) ==>
            StoredOrZero(g, g.nodeType[id], id) == fs[i].1)
      && ((forall i :: 0 <= i < |fs| ==> fs[i].0 != id) ==>
            StoredOrZero(g, g.nodeType[id], id) == Zeros(Width(g, g.nodeType[id])))
  {
    var g := Build(nodes, edges, directed, fs).value;
    if id in g.nodeType {
      var t := g.nodeType[id];
      forall i | 0 <= i < |fs| && fs[i].0 == id && (forall j :: i < j < |fs| ==> fs[j].0 != id)
        ensures StoredOrZero(g, t, id) == fs[i].1
      {
        VectorsHoldSupplied(g.nodeType, fs, t, i);
      }
      if forall i :: 0 <= i < |fs| ==> fs[i].0 != id {
        if t in g.features && id in g.features[t].vectors {
          VectorsOnlySupplied(g.nodeType, fs, t, id);
        }
      }
    }
  }
}

=== FILE: features.dfy ===
/** Feature lookup: the per-type feature tables, the id-to-row index
    (`_get_index_for_nodes`), type inference over a batch of possibly null
    ids, and the zero-filling `node_features` lookup. */
module Features {
  import opened Wrappers
  import opened Graph

  /** The ids among `ids` whose type is `t`, in the same order. */
  function NodesOfType(ids: seq<NodeId>, nodeType: map<NodeId, Label>, t: Label): seq<NodeId>
    requires forall i :: 0 <= i < |ids| ==> ids[i] in nodeType
  {
    if |ids| == 0 then []
    else
      var rest := NodesOfType(ids[1..], nodeType, t);
      if nodeType[ids[0]] == t then [ids[0]] + rest else rest
  }

  /** Filtering by type keeps exactly the ids of that type, and no id twice
      if there was none twice. */
  lemma {:induction false} NodesOfTypeKeeps(ids: seq<NodeId>, nodeType: map<NodeId, Label>, t: Label)
    requires forall i :: 0 <= i < |ids| ==> ids[i] in nodeType
    ensures forall id :: id in NodesOfType(ids, nodeType, t) <==> id in ids && nodeType[id] == t
    ensures Distinct(ids) ==> Distinct(NodesOfType(ids, nodeType, t))
  {
    if |ids| > 0 {
      NodesOfTypeKeeps(ids[1..], nodeType, t);
      assert forall id :: id in ids <==> id == ids[0] || id in ids[1..];
      if Distinct(ids) {
        assert ids[0] !in ids[1..];
      }
    }
  }

  /** The rows of type `t`'s feature table: every node of type `t`, in node order. */
  function TypeNodes(g: Graph, t: Label): (r: seq<NodeId>)
    requires Valid(g)
    ensures forall id :: id in r <==> id in g.nodeType && g.nodeType[id] == t
    ensures Distinct(r)
  {
    NodesOfTypeKeeps(g.order, g.nodeType, t);
    NodesOfType(g.order, g.nodeType, t)
  }

  /** The first position of `x` in `s`. */
  function IndexOf(s: seq<NodeId>, x: NodeId): (i: nat)
    requires x in s
    ensures i < |s| && s[i] == x
    ensures forall j :: 0 <= j < i ==> s[j] != x
  {
    if s[0] == x then 0 else 1 + IndexOf(s[1..], x)
  }

  /** The vector stored for `id` under type `t`, or the zero vector of the
      type's width when none was supplied. */
  function StoredOrZero(g: Graph, t: Label, id: NodeId): (r: seq<real>)
    requires Valid(g)
    ensures |r| == Width(g, t)
  {
    if t in g.features && id in g.features[t].vectors then g.features[t].vectors[id]
    else Zeros(Width(g, t))
  }

  /** Type `t`'s dense feature matrix: one row per node of the type. */
  function FeatureMatrix(g: Graph, t: Label): (m: seq<seq<real>>)
    requires Valid(g)
    ensures |m| == |TypeNodes(g, t)|
    ensures forall k :: 0 <= k < |m| ==> m[k] == StoredOrZero(g, t, TypeNodes(g, t)[k])
  {
    var rows := TypeNodes(g, t);
    seq(|rows|, k requires 0 <= k < |rows| => StoredOrZero(g, t, rows[k]))
  }

  /** Every non-null id of the batch is a node of the graph. */
  predicate AllKnown(g: Graph, ids: seq<Option<NodeId>>) {
    forall i :: 0 <= i < |ids| && ids[i].Some? ==> ids[i].value in g.nodeType
  }

  /** Every non-null id of the batch has type `t`. */
  predicate AllOfType(g: Graph, ids: seq<Option<NodeId>>, t: Label)
    requires AllKnown(g, ids)
  {
    forall i :: 0 <= i < |ids| && ids[i].Some? ==> g.nodeType[ids[i].value] == t
  }

  predicate AllNull(ids: seq<Option<NodeId>>) {
    forall i :: 0 <= i < |ids| ==> ids[i].None?
  }

  /** Two non-null ids of the batch have different types. */
  ghost predicate SpansSeveralTypes(g: Graph, ids: seq<Option<NodeId>>)
    requires AllKnown(g, ids)
  {
    exists i, j :: 0 <= i < |ids| && 0 <= j < |ids| && ids[i].Some? && ids[j].Some? &&
      g.nodeType[ids[i].value] != g.nodeType[ids[j].value]
  }

  /** The first non-null id that is not a node of the graph, if any. */
  function FirstUnknown(g: Graph, ids: seq<Option<NodeId>>): (r: Option<NodeId>)
    ensures r.None? <==> AllKnown(g, ids)
    ensures r.Some? ==> r.value !in g.nodeType && Some(r.value) in ids
  {
    if |ids| == 0 then None
    else if ids[0].Some? && ids[0].value !in g.nodeType then ids[0]
    else
      var rest := FirstUnknown(g, ids[1..]);
      assert forall x :: x in ids[1..] ==> x in ids;
      assert AllKnown(g, ids[1..]) ==> AllKnown(g, ids) by {
        if AllKnown(g, ids[1..]) {
          forall i | 0 <= i < |ids| && ids[i].Some? ensures ids[i].value in g.nodeType {
            if i > 0 { assert ids[1..][i - 1] == ids[i]; }
          }
        }
      }
      rest
  }

  /** The position of the first non-null id, if any. */
  function FirstPresent(ids: seq<Option<NodeId>>): (r: Option<nat>)
    ensures r.None? <==> AllNull(ids)
    ensures r.Some? ==> r.value < |ids| && ids[r.value].Some?
  {
    if |ids| == 0 then None
    else if ids[0].Some? then Some(0)
    else
      match FirstPresent(ids[1..])
      case None => None
      case Some(k) => Some(k + 1)
  }

  /** The node type of a lookup batch: the explicit `t`, checked against every
      non-null id, or else the type of the non-null ids, which must agree. */
  function ResolveType(g: Graph, ids: seq<Option<NodeId>>, t: Option<Label>): (r: Result<Label, Error>)
    ensures r.Ok? ==> AllKnown(g, ids) && AllOfType(g, ids, r.value) && r.value in NodeTypes(g)
    ensures !AllKnown(g, ids) ==>
      r.Err? && r.error.AbsentId? && r.error.id !in g.nodeType && Some(r.error.id) in ids &&
      Kind(r.error) == InvalidArgument
    ensures t.None? && AllKnown(g, ids) ==> (r.Err? <==> AllNull(ids) || SpansSeveralTypes(g, ids))
    ensures t.None? && AllKnown(g, ids) && AllNull(ids) ==> r == Err(NoNodeType)
    ensures t.None? && AllKnown(g, ids) && SpansSeveralTypes(g, ids) ==> r == Err(MixedNodeTypes)
    ensures t.Some? ==>
      (r.Ok? <==> AllKnown(g, ids) && AllOfType(g, ids, t.value) && t.value in NodeTypes(g))
    ensures t.Some? && r.Ok? ==> r.value == t.value
    ensures t.Some? && AllKnown(g, ids) && !AllOfType(g, ids, t.value) ==> r == Err(WrongNodeType(t.value))
    ensures t.Some? && AllKnown(g, ids) && AllOfType(g, ids, t.value) && t.value !in NodeTypes(g) ==>
      r == Err(UnknownNodeType(t.value)) && Kind(r.error) == NotFound
  {
    match FirstUnknown(g, ids)
    case Some(id) => Err(AbsentId(id))
    case None =>
      match t
      case None =>
        (match FirstPresent(ids)
         case None => Err(NoNodeType)
         case Some(k) =>
           var ty := g.nodeType[ids[k].value];
           if AllOfType(g, ids, ty) then Ok(ty) else Err(MixedNodeTypes))
      case Some(ty) =>
        if !AllOfType(g, ids, ty) then Err(WrongNodeType(ty))
        else if ty !in NodeTypes(g) then Err(UnknownNodeType(ty))
        else Ok(ty)
  }

  /** Positions in `table` of each of `ids`. */
  function Positions(table: seq<NodeId>, ids: seq<NodeId>): (r: seq<nat>)
    requires forall i :: 0 <= i < |ids| ==> ids[i] in table
    ensures |r| == |ids|
    ensures forall i :: 0 <= i < |ids| ==> r[i] < |table| && table[r[i]] == ids[i]
  {
    seq(|ids|, i requires 0 <= i < |ids| => IndexOf(table, ids[i]))
  }

  /** A batch of plain ids seen as a batch with no null entries. */
  function Present(ids: seq<NodeId>): (r: seq<Option<NodeId>>)
    ensures |r| == |ids|
    ensures forall i :: 0 <= i < |ids| ==> r[i] == Some(ids[i])
  {
    seq(|ids|, i requires 0 <= i < |ids| => Some(ids[i]))
  }

  /** `_get_index_for_nodes`: the row of each id within its type's feature table. */
  function IndexForNodes(g: Graph, ids: seq<NodeId>, t: Option<Label>): (r: Result<seq<nat>, Error>)
    requires Valid(g)
    ensures r.Ok? <==> ResolveType(g, Present(ids), t).Ok?
    ensures r.Ok? ==> |r.value| == |ids|
    ensures r.Ok? ==> forall i :: 0 <= i < |ids| ==>
      ids[i] in g.nodeType && (t.Some? ==> g.nodeType[ids[i]] == t.value) &&
      r.value[i] < |TypeNodes(g, g.nodeType[ids[i]])| &&
      TypeNodes(g, g.nodeType[ids[i]])[r.value[i]] == ids[i]
    ensures r.Ok? ==> forall i, j :: 0 <= i < |ids| && 0 <= j < |ids| ==>
      (r.value[i] == r.value[j] <==> ids[i] == ids[j])
    ensures t.None? && AllKnown(g, Present(ids)) && SpansSeveralTypes(g, Present(ids)) ==>
      r == Err(MixedNodeTypes)
  {
    var batch := Present(ids);
    var ty :- ResolveType(g, batch, t);
    assert forall i :: 0 <= i < |ids| ==> batch[i].Some? && g.nodeType[ids[i]] == ty;
    Ok(Positions(TypeNodes(g, ty), ids))
  }

  /** `node_features`: one row per entry of `ids`; a null id, or a node of the
      resolved type without a stored vector, gives the zero vector. */
  function NodeFeatures(g: Graph, ids: seq<Option<NodeId>>, t: Option<Label>): (r: Result<seq<seq<real>>, Error>)
    requires Valid(g)
    ensures r.Ok? <==> ResolveType(g, ids, t).Ok?
    ensures r.Err? ==> r.error == ResolveType(g, ids, t).error
    ensures r.Ok? ==>
      var ty := ResolveType(g, ids, t).value;
      && |r.value| == |ids|
      && forall i :: 0 <= i < |ids| ==>
           && |r.value[i]| == Width(g, ty)
           && (ids[i].None? ==> r.value[i] == Zeros(Width(g, ty)))
           && (ids[i].Some? ==> r.value[i] == StoredOrZero(g, ty, ids[i].value))
  {
    var ty :- ResolveType(g, ids, t);
    var table := TypeNodes(g, ty);
    var matrix := FeatureMatrix(g, ty);
    assert forall i :: 0 <= i < |ids| && ids[i].Some? ==> ids[i].value in table;
    Ok(seq(|ids|, i requires 0 <= i < |ids| =>
      if ids[i].None? then Zeros(Width(g, ty)) else matrix[IndexOf(table, ids[i].value)]))
  }

  /** If `ids[k]` is the first non-null id that is not a node, it is the one reported. */
  lemma {:induction false} FirstUnknownAt(g: Graph, ids: seq<Option<NodeId>>, k: nat)
    requires k < |ids| && ids[k].Some? && ids[k].value !in g.nodeType
    requires forall i :: 0 <= i < k && ids[i].Some? ==> ids[i].value in g.nodeType
    ensures FirstUnknown(g, ids) == ids[k]
  {
    if k > 0 {
      assert ids[0].Some? ==> ids[0].value in g.nodeType;
      FirstUnknownAt(g, ids[1..], k - 1);
    }
  }

  /** One pass reporting the first non-null id that is not a node. */
  method FindUnknown(g: Graph, ids: seq<Option<NodeId>>) returns (r: Option<NodeId>)
    ensures r == FirstUnknown(g, ids)
  {
    var k := 0;
    while k < |ids|
      invariant 0 <= k <= |ids|
      invariant forall i :: 0 <= i < k && ids[i].Some? ==> ids[i].value in g.nodeType
    {
      if ids[k].Some? && ids[k].value !in g.nodeType {
        FirstUnknownAt(g, ids, k);
        return ids[k];
      }
      k := k + 1;
    }
    return None;
  }

  /** One pass inferring the batch's type from its non-null ids, or checking
      them against the explicit type. */
  method InferType(g: Graph, ids: seq<Option<NodeId>>, t: Option<Label>) returns (r: Result<Label, Error>)
    requires AllKnown(g, ids)
    ensures r == ResolveType(g, ids, t)
  {
    var inferred := t;
    var k := 0;
    while k < |ids|
      invariant 0 <= k <= |ids|
      invariant t.Some? ==> inferred == t
      invariant t.None? ==> (inferred.None? <==> forall i :: 0 <= i < k ==> ids[i].None?)
      invariant t.None? && inferred.Some? ==> inferred.value in NodeTypes(g)
      invariant inferred.Some? ==>
        forall i :: 0 <= i < k && ids[i].Some? ==> g.nodeType[ids[i].value] == inferred.value
      invariant t.None? && inferred.Some? ==>
        exists j :: 0 <= j < k && ids[j].Some? && g.nodeType[ids[j].value] == inferred.value
    {
      if ids[k].Some? {
        var tk := g.nodeType[ids[k].value];
        match inferred {
          case None =>
            inferred := Some(tk);
          case Some(x) =>
            if tk != x {
              if t.None? {
                assert SpansSeveralTypes(g, ids);
                return Err(MixedNodeTypes);
              } else {
                assert !AllOfType(g, ids, x);
                return Err(WrongNodeType(x));
              }
            }
        }
      }
      k := k + 1;
    }
    if inferred.None? {
      assert AllNull(ids);
      return Err(NoNodeType);
    }
    var ty := inferred.value;
    assert AllOfType(g, ids, ty);
    if ty !in NodeTypes(g) {
      return Err(UnknownNodeType(ty));
    }
    return Ok(ty);
  }

  /** One pass gathering a row per id from type `ty`'s feature matrix. */
  method GatherRows(g: Graph, ids: seq<Option<NodeId>>, ty: Label) returns (rows: seq<seq<real>>)
    requires Valid(g) && AllKnown(g, ids) && AllOfType(g, ids, ty)
    ensures |rows| == |ids|
    ensures forall i :: 0 <= i < |ids| ==>
      rows[i] == (if ids[i].None? then Zeros(Width(g, ty)) else StoredOrZero(g, ty, ids[i].value))
  {
    var table := TypeNodes(g, ty);
    var matrix := FeatureMatrix(g, ty);
    rows := [];
    var k := 0;
    while k < |ids|
      invariant 0 <= k <= |ids|
      invariant |rows| == k
      invariant forall i :: 0 <= i < k ==>
        rows[i] == (if ids[i].None? then Zeros(Width(g, ty)) else StoredOrZero(g, ty, ids[i].value))
    {
      if ids[k].None? {
        rows := rows + [Zeros(Width(g, ty))];
      } else {
        rows := rows + [matrix[IndexOf(table, ids[k].value)]];
      }
      k := k + 1;
    }
  }

  /** The lookup's shape: one row per requested id, each as wide as
      `node_feature_sizes()` says for the resolved type. */
  lemma LookupShape(g: Graph, ids: seq<Option<NodeId>>, t: Option<Label>)
    requires Valid(g) && NodeFeatures(g, ids, t).Ok?
    ensures ResolveType(g, ids, t).value in NodeFeatureSizes(g)
    ensures |NodeFeatures(g, ids, t).value| == |ids|
    ensures forall i :: 0 <= i < |ids| ==>
      |NodeFeatures(g, ids, t).value[i]| == NodeFeatureSizes(g)[ResolveType(g, ids, t).value]
  {
  }

  lemma NodeFeaturesFails(g: Graph, ids: seq<Option<NodeId>>, t: Option<Label>)
    requires Valid(g) && ResolveType(g, ids, t).Err?
    ensures NodeFeatures(g, ids, t) == Err(ResolveType(g, ids, t).error)
  {
  }

  lemma NodeFeaturesRows(g: Graph, ids: seq<Option<NodeId>>, t: Option<Label>, ty: Label, rows: seq<seq<real>>)
    requires Valid(g) && ResolveType(g, ids, t) == Ok(ty)
    requires |rows| == |ids|
    requires forall i :: 0 <= i < |ids| ==>
      rows[i] == (if ids[i].None? then Zeros(Width(g, ty)) else StoredOrZero(g, ty, ids[i].value))
    ensures NodeFeatures(g, ids, t) == Ok(rows)
  {
    var r := NodeFeatures(g, ids, t);
    assert r.Ok?;
    var expected := r.value;
    assert |expected| == |rows|;
    forall i | 0 <= i < |ids| ensures rows[i] == expected[i] {
      if ids[i].None? {
        assert expected[i] == Zeros(Width(g, ty));
      } else {
        assert expected[i] == StoredOrZero(g, ty, ids[i].value);
      }
    }
    assert rows == expected;
  }

  /** The batch lookup as the store performs it: validate the ids, resolve
      their type, gather the rows. */
  method LookupFeatures(g: Graph, ids: seq<Option<NodeId>>, t: Option<Label>)
    returns (r: Result<seq<seq<real>>, Error>)
    requires Valid(g)
    ensures r == NodeFeatures(g, ids, t)
  {
    var unknown := FindUnknown(g, ids);
    if unknown.Some? {
      NodeFeaturesFails(g, ids, t);
      return Err(AbsentId(unknown.value));
    }
    var resolved := InferType(g, ids, t);
    if resolved.Err? {
      NodeFeaturesFails(g, ids, t);
      return Err(resolved.error);
    }
    var rows := GatherRows(g, ids, resolved.value);
    NodeFeaturesRows(g, ids, t, resolved.value, rows);
    r := Ok(rows);
  }
}

=== FILE: graph.dfy ===
/** The immutable heterogeneous multigraph held by a `StellarGraph`:
    nodes with a type label, an edge list that may repeat endpoints, a
    directed flag and, per node type, a feature width and the vectors that
    were supplied for nodes of that type. */
module Graph {
  import opened Wrappers

  type NodeId = int
  type Label = string

  /** The label given to every node or edge that has no type of its own. */
  const DefaultLabel: Label := "default"

  /** An edge of the multigraph; `weight` is `None` for an unweighted edge,
      which is different from a stored weight of `0.0`. */
  datatype Edge = Edge(src: NodeId, dst: NodeId, etype: Label, weight: Option<real>)

  /** The features of one node type: the common width of its vectors and the
      vectors supplied for some (not necessarily all) of its nodes. */
  datatype TypeFeatures = TypeFeatures(width: nat, vectors: map<NodeId, seq<real>>)

  /** `order` lists the node ids in insertion order, `nodeType` gives each
      node its type label. */
  datatype Graph = Graph(
    order: seq<NodeId>,
    nodeType: map<NodeId, Label>,
    edges: seq<Edge>,
    directed: bool,
    features: map<Label, TypeFeatures>)

  /** The ways a query or the construction can fail. A neighbour query on a
      missing node is `UnknownNode` (not found); a feature lookup naming an id
      that is no node is `AbsentId`, an invalid argument of the lookup. */
  datatype Error =
    | UnknownNode(id: NodeId)
    | AbsentId(id: NodeId)
    | MixedNodeTypes
    | NoNodeType
    | WrongNodeType(expected: Label)
    | UnknownNodeType(t: Label)
    | DuplicateNode(id: NodeId)
    | DanglingEdge(src: NodeId, dst: NodeId)
    | FeatureForUnknownNode(id: NodeId)
    | WidthMismatch(t: Label)

  datatype ErrorKind = InvalidArgument | NotFound | ConstructionError

  function Kind(e: Error): ErrorKind {
    match e
    case UnknownNode(_) => NotFound
    case AbsentId(_) => InvalidArgument
    case UnknownNodeType(_) => NotFound
    case MixedNodeTypes => InvalidArgument
    case NoNodeType => InvalidArgument
    case WrongNodeType(_) => InvalidArgument
    case WidthMismatch(_) => InvalidArgument
    case DuplicateNode(_) => ConstructionError
    case DanglingEdge(_, _) => ConstructionError
    case FeatureForUnknownNode(_) => ConstructionError
  }

  predicate Distinct(s: seq<NodeId>) {
    forall i, j :: 0 <= i < j < |s| ==> s[i] != s[j]
  }

  predicate EdgesKnown(nodeType: map<NodeId, Label>, edges: seq<Edge>) {
    forall i :: 0 <= i < |edges| ==> edges[i].src in nodeType && edges[i].dst in nodeType
  }

  /** The vectors stored for type `t` belong to nodes of type `t` and all have
      the type's width. */
  predicate TableFits(nodeType: map<NodeId, Label>, t: Label, tf: TypeFeatures) {
    forall id :: id in tf.vectors ==>
      id in nodeType && nodeType[id] == t && |tf.vectors[id]| == tf.width
  }

  /** The labels a node-type map uses. */
  function LabelsOf(nodeType: map<NodeId, Label>): (r: set<Label>)
    ensures forall id :: id in nodeType ==> nodeType[id] in r
  {
    set id | id in nodeType :: nodeType[id]
  }

  predicate FeaturesFit(nodeType: map<NodeId, Label>, features: map<Label, TypeFeatures>) {
    forall t :: t in features ==> t in LabelsOf(nodeType) && TableFits(nodeType, t, features[t])
  }

  /** The invariants every constructed graph satisfies. */
  predicate Valid(g: Graph) {
    && Distinct(g.order)
    && (forall id :: id in g.nodeType ==> id in g.order)
    && (forall i :: 0 <= i < |g.order| ==> g.order[i] in g.nodeType)
    && EdgesKnown(g.nodeType, g.edges)
    && FeaturesFit(g.nodeType, g.features)
  }

  /** `node_types`: the set of node type labels present. */
  function NodeTypes(g: Graph): (r: set<Label>)
    ensures forall id :: id in g.nodeType ==> g.nodeType[id] in r
    ensures forall t :: t in r ==> exists id :: id in g.nodeType && g.nodeType[id] == t
  {
    LabelsOf(g.nodeType)
  }

  /** The feature width of type `t`; a type that received no vectors has width 0. */
  function Width(g: Graph, t: Label): nat {
    if t in g.features then g.features[t].width else 0
  }

  /** `node_feature_sizes`: the feature width of every node type. Each width is
      the length of the vectors stored for that type. */
  function NodeFeatureSizes(g: Graph): (r: map<Label, nat>)
    requires Valid(g)
    ensures r.Keys == NodeTypes(g)
    ensures forall t, id :: t in g.features && id in g.features[t].vectors ==>
      t in r && r[t] == |g.features[t].vectors[id]|
    ensures forall t :: t in r && t !in g.features ==> r[t] == 0
  {
    map t | t in NodeTypes(g) :: Width(g, t)
  }

  /** The zero vector of width `w`. */
  function Zeros(w: nat): (r: seq<real>)
    ensures |r| == w
    ensures forall k :: 0 <= k < w ==> r[k] == 0.0
  {
    seq(w, _ => 0.0)
  }

  /** `edges(triple=True)`: each edge as (source, destination, edge type). */
  function EdgeTriples(g: Graph): (r: seq<(NodeId, NodeId, Label)>)
    ensures |r| == |g.edges|
    ensures forall i :: 0 <= i < |g.edges| ==> r[i] == (g.edges[i].src, g.edges[i].dst, g.edges[i].etype)
    ensures forall e :: e in g.edges ==> (e.src, e.dst, e.etype) in r
    ensures forall x :: x in r ==> exists e :: e in g.edges && x == (e.src, e.dst, e.etype)
  {
    var r := seq(|g.edges|, i requires 0 <= i < |g.edges| => (g.edges[i].src, g.edges[i].dst, g.edges[i].etype));
    assert forall i :: 0 <= i < |g.edges| ==> r[i] == (g.edges[i].src, g.edges[i].dst, g.edges[i].etype);
    assert forall e :: e in g.edges ==> exists i :: 0 <= i < |g.edges| && g.edges[i] == e;
    assert forall x :: x in r ==> exists i :: 0 <= i < |r| && r[i] == x && g.edges[i] in g.edges;
    r
  }

  /** The set of edge type labels present. */
  function EdgeTypes(g: Graph): set<Label> {
    set i | 0 <= i < |g.edges| :: g.edges[i].etype
  }
}

=== FILE: neighbours.dfy ===
/** Neighbour queries (`neighbors`, `in_nodes`, `out_nodes`): one entry per
    incident edge, so parallel edges repeat the neighbour; an optional
    edge-type filter; an optional weight, absent for unweighted edges. */
module Neighbours {
  import opened Wrappers
  import opened Graph

  datatype Direction = Out | In | Both

  /** An adjacency entry: the neighbour reached, and the type and weight of
      the edge that reaches it. */
  datatype Adj = Adj(node: NodeId, etype: Label, weight: Option<real>)

  /** A query result item: the neighbour alone, or with its edge's weight
      (`include_edge_weight=True`). */
  datatype Neighbour = Plain(id: NodeId) | Weighted(id: NodeId, weight: Option<real>)

  /** The entries edge `e` contributes to the list of node `n`. In a directed
      graph an out-entry sits at the source and an in-entry at the
      destination; in an undirected graph each endpoint gets one entry
      pointing to the other, in every direction (a self-loop gives one). */
  function EdgeEntries(directed: bool, e: Edge, n: NodeId, dir: Direction): seq<Adj> {
    var outs := if e.src == n then [Adj(e.dst, e.etype, e.weight)] else [];
    var ins := if e.dst == n then [Adj(e.src, e.etype, e.weight)] else [];
    if !directed then
      (if e.src == n then outs else ins)
    else
      match dir
      case Out => outs
      case In => ins
      case Both => outs + ins
  }

  /** The adjacency list of `n` in direction `dir`, in edge order. */
  function Entries(directed: bool, edges: seq<Edge>, n: NodeId, dir: Direction): seq<Adj> {
    if |edges| == 0 then []
    else EdgeEntries(directed, edges[0], n, dir) + Entries(directed, edges[1..], n, dir)
  }

  /** Whether an edge type passes the `edge_types` filter (`None`: no filter). */
  predicate Admits(edgeTypes: Option<set<Label>>, t: Label) {
    edgeTypes.None? || t in edgeTypes.value
  }

  /** The entries whose edge type passes the filter, in order. */
  function FilterTypes(s: seq<Adj>, edgeTypes: Option<set<Label>>): (r: seq<Adj>)
    ensures forall a :: a in r ==> a in s && Admits(edgeTypes, a.etype)
  {
    if |s| == 0 then []
    else
      var rest := FilterTypes(s[1..], edgeTypes);
      if Admits(edgeTypes, s[0].etype) then [s[0]] + rest else rest
  }

  /** The filter keeps exactly the entries of the admitted types, each as
      often as it occurs. */
  lemma {:induction false} FilterKeepsExactly(s: seq<Adj>, edgeTypes: Option<set<Label>>, a: Adj)
    ensures multiset(FilterTypes(s, edgeTypes))[a] ==
      if Admits(edgeTypes, a.etype) then multiset(s)[a] else 0
  {
    if |s| > 0 {
      assert s == [s[0]] + s[1..];
      FilterKeepsExactly(s[1..], edgeTypes, a);
    }
  }

  /** A filter that admits none of the entries leaves nothing. */
  lemma {:induction false} FilterNone(s: seq<Adj>, edgeTypes: Option<set<Label>>)
    requires forall a :: a in s ==> !Admits(edgeTypes, a.etype)
    ensures FilterTypes(s, edgeTypes) == []
  {
    if |s| > 0 {
      assert s[0] in s;
      assert forall a :: a in s[1..] ==> a in s;
      FilterNone(s[1..], edgeTypes);
    }
  }

  function ToNeighbour(a: Adj, includeEdgeWeight: bool): Neighbour {
    if includeEdgeWeight then Weighted(a.node, a.weight) else Plain(a.node)
  }

  /** The entries as query results, in order. */
  function Project(s: seq<Adj>, includeEdgeWeight: bool): (r: seq<Neighbour>)
    ensures |r| == |s|
    ensures forall i :: 0 <= i < |s| ==> r[i] == ToNeighbour(s[i], includeEdgeWeight)
  {
    if |s| == 0 then [] else [ToNeighbour(s[0], includeEdgeWeight)] + Project(s[1..], includeEdgeWeight)
  }

  /** What a query reports for a list of entries. */
  function View(s: seq<Adj>, includeEdgeWeight: bool, edgeTypes: Option<set<Label>>): seq<Neighbour> {
    Project(FilterTypes(s, edgeTypes), includeEdgeWeight)
  }

  /** The common shape of the three queries: unknown nodes are an error,
      known ones get their filtered adjacency list. */
  function Query(g: Graph, n: NodeId, dir: Direction, includeEdgeWeight: bool,
                 edgeTypes: Option<set<Label>>): (r: Result<seq<Neighbour>, Error>)
    ensures r.Err? <==> n !in g.nodeType
    ensures r.Err? ==> r.error == UnknownNode(n) && Kind(r.error) == NotFound
    ensures r.Ok? ==> forall i :: 0 <= i < |r.value| ==> (r.value[i].Weighted? <==> includeEdgeWeight)
  {
    if n !in g.nodeType then Err(UnknownNode(n))
    else Ok(View(Entries(g.directed, g.edges, n, dir), includeEdgeWeight, edgeTypes))
  }

  /** `neighbors`: in- and out-neighbours together. Every result is the other
      end of an admitted edge at `n`, with that edge's weight, and appears once
      per such edge. */
  function Neighbors(g: Graph, n: NodeId, includeEdgeWeight: bool, edgeTypes: Option<set<Label>>)
    : (r: Result<seq<Neighbour>, Error>)
    ensures r.Err? <==> n !in g.nodeType
    ensures r.Err? ==> r.error == UnknownNode(n) && Kind(r.error) == NotFound
    ensures r.Ok? ==> forall i :: 0 <= i < |r.value| ==> (r.value[i].Weighted? <==> includeEdgeWeight)
    ensures r.Ok? ==> forall i :: 0 <= i < |r.value| ==> FromAdmittedEdge(g, n, Both, edgeTypes, r.value[i])
    ensures r.Ok? ==> forall x: Neighbour :: x.Weighted? == includeEdgeWeight ==>
      multiset(r.value)[x] == EdgeCount(g.directed, g.edges, n, Both, edgeTypes, x)
  {
    if n !in g.nodeType then Query(g, n, Both, includeEdgeWeight, edgeTypes)
    else
      QueryFromEdges(g, n, Both, includeEdgeWeight, edgeTypes);
      QueryCountsEdges(g, n, Both, includeEdgeWeight, edgeTypes);
      Query(g, n, Both, includeEdgeWeight, edgeTypes)
  }

  /** `in_nodes`: the sources of the edges into `n` (in an undirected graph,
      the other end of every edge at `n`), once per admitted edge. */
  function InNodes(g: Graph, n: NodeId, includeEdgeWeight: bool, edgeTypes: Option<set<Label>>)
    : (r: Result<seq<Neighbour>, Error>)
    ensures r.Err? <==> n !in g.nodeType
    ensures r.Err? ==> r.error == UnknownNode(n) && Kind(r.error) == NotFound
    ensures r.Ok? ==> forall i :: 0 <= i < |r.value| ==> (r.value[i].Weighted? <==> includeEdgeWeight)
    ensures r.Ok? ==> forall i :: 0 <= i < |r.value| ==> FromAdmittedEdge(g, n, In, edgeTypes, r.value[i])
    ensures r.Ok? ==> forall x: Neighbour :: x.Weighted? == includeEdgeWeight ==>
      multiset(r.value)[x] == EdgeCount(g.directed, g.edges, n, In, edgeTypes, x)
  {
    if n !in g.nodeType then Query(g, n, In, includeEdgeWeight, edgeTypes)
    else
      QueryFromEdges(g, n, In, includeEdgeWeight, edgeTypes);
      QueryCountsEdges(g, n, In, includeEdgeWeight, edgeTypes);
      Query(g, n, In, includeEdgeWeight, edgeTypes)
  }

  /** `out_nodes`: the destinations of the edges out of `n` (in an undirected
      graph, the other end of every edge at `n`), once per admitted edge. */
  function OutNodes(g: Graph, n: NodeId, includeEdgeWeight: bool, edgeTypes: Option<set<Label>>)
    : (r: Result<seq<Neighbour>, Error>)
    ensures r.Err? <==> n !in g.nodeType
    ensures r.Err? ==> r.error == UnknownNode(n) && Kind(r.error) == NotFound
    ensures r.Ok? ==> forall i :: 0 <= i < |r.value| ==> (r.value[i].Weighted? <==> includeEdgeWeight)
    ensures r.Ok? ==> forall i :: 0 <= i < |r.value| ==> FromAdmittedEdge(g, n, Out, edgeTypes, r.value[i])
    ensures r.Ok? ==> forall x: Neighbour :: x.Weighted? == includeEdgeWeight ==>
      multiset(r.value)[x] == EdgeCount(g.directed, g.edges, n, Out, edgeTypes, x)
  {
    if n !in g.nodeType then Query(g, n, Out, includeEdgeWeight, edgeTypes)
    else
      QueryFromEdges(g, n, Out, includeEdgeWeight, edgeTypes);
      QueryCountsEdges(g, n, Out, includeEdgeWeight, edgeTypes);
      Query(g, n, Out, includeEdgeWeight, edgeTypes)
  }

  /** Edge `e` joins `n` to `m` in direction `dir`. */
  predicate Joins(directed: bool, e: Edge, n: NodeId, m: NodeId, dir: Direction) {
    match dir
    case Out => (e.src == n && e.dst == m) || (!directed && e.dst == n && e.src == m)
    case In => (e.dst == n && e.src == m) || (!directed && e.src == n && e.dst == m)
    case Both => (e.src == n && e.dst == m) || (e.dst == n && e.src == m)
  }

  /** An entry an edge contributes names the edge's other end, type and weight. */
  lemma EntryJoins(directed: bool, e: Edge, n: NodeId, dir: Direction, a: Adj)
    requires a in EdgeEntries(directed, e, n, dir)
    ensures a.etype == e.etype && a.weight == e.weight && Joins(directed, e, n, a.node, dir)
  {
  }

  /** Result `x` stands for an edge of `g` that passes the filter, joins `n`
      to `x.id` in direction `dir`, and has `x`'s weight if `x` has one. */
  predicate FromAdmittedEdge(g: Graph, n: NodeId, dir: Direction, edgeTypes: Option<set<Label>>, x: Neighbour) {
    exists k :: 0 <= k < |g.edges| && Admits(edgeTypes, g.edges[k].etype) &&
      Joins(g.directed, g.edges[k], n, x.id, dir) && (x.Weighted? ==> x.weight == g.edges[k].weight)
  }

  /** Every result of a query on a node comes from an admitted edge joining it
      to the reported neighbour, and carries that edge's weight. */
  lemma QueryFromEdges(g: Graph, n: NodeId, dir: Direction, w: bool, edgeTypes: Option<set<Label>>)
    requires n in g.nodeType
    ensures forall i :: 0 <= i < |Query(g, n, dir, w, edgeTypes).value| ==>
      FromAdmittedEdge(g, n, dir, edgeTypes, Query(g, n, dir, w, edgeTypes).value[i])
  {
    var r := Query(g, n, dir, w, edgeTypes).value;
    var f := FilterTypes(Entries(g.directed, g.edges, n, dir), edgeTypes);
    forall i | 0 <= i < |r| ensures FromAdmittedEdge(g, n, dir, edgeTypes, r[i]) {
      assert r[i] == ToNeighbour(f[i], w);
      assert f[i] in f;
      EntriesComeFromEdges(g.directed, g.edges, n, dir, f[i]);
      var k :| 0 <= k < |g.edges| && f[i] in EdgeEntries(g.directed, g.edges[k], n, dir);
      EntryJoins(g.directed, g.edges[k], n, dir, f[i]);
    }
  }

  // ---------------------------------------------------------------------
  // Reference count: what each edge contributes to a query

  /** How many times edge `e` makes `m` a neighbour of `n` in direction
      `dir`. In an undirected graph an edge at `n` counts once, pointing to
      its other end. In a directed graph it counts once as an out-edge and
      once as an in-edge, so a self-loop counts twice for `Both`. */
  function Ways(directed: bool, e: Edge, n: NodeId, m: NodeId, dir: Direction): (r: nat)
    ensures r <= 2
    ensures r > 0 <==> Joins(directed, e, n, m, dir)
  {
    var out := if e.src == n && e.dst == m then 1 else 0;
    var inn := if e.dst == n && e.src == m then 1 else 0;
    if !directed then (if out + inn > 0 then 1 else 0)
    else
      match dir
      case Out => out
      case In => inn
      case Both => out + inn
  }

  /** What edge `e` contributes to the count of result `x`: nothing if the
      filter rejects its type or `x` carries another weight. */
  function Contribution(directed: bool, e: Edge, n: NodeId, dir: Direction,
                        edgeTypes: Option<set<Label>>, x: Neighbour): nat {
    if Admits(edgeTypes, e.etype) && (x.Weighted? ==> x.weight == e.weight)
    then Ways(directed, e, n, x.id, dir) else 0
  }

  /** The number of times a query on `n` should report `x`: one per admitted
      edge joining `n` to `x.id`, with the weight `x` names. */
  function EdgeCount(directed: bool, edges: seq<Edge>, n: NodeId, dir: Direction,
                     edgeTypes: Option<set<Label>>, x: Neighbour): nat
  {
    if |edges| == 0 then 0
    else Contribution(directed, edges[0], n, dir, edgeTypes, x) + EdgeCount(directed, edges[1..], n, dir, edgeTypes, x)
  }

  /** A one-entry list reports its entry once if the filter admits it. */
  lemma ViewOne(a: Adj, w: bool, edgeTypes: Option<set<Label>>, x: Neighbour)
    ensures multiset(View([a], w, edgeTypes))[x] ==
      if Admits(edgeTypes, a.etype) && ToNeighbour(a, w) == x then 1 else 0
  {
    assert [a][1..] == [];
  }

  /** An entry becomes result `x` exactly when it names `x`'s node and, if
      `x` is weighted, `x`'s weight. */
  lemma ToNeighbourIs(a: Adj, w: bool, x: Neighbour)
    requires x.Weighted? == w
    ensures ToNeighbour(a, w) == x <==> a.node == x.id && (x.Weighted? ==> x.weight == a.weight)
  {
  }

  /** How often the out-part and the in-part of edge `e` report `x`. */
  lemma EdgeHalves(e: Edge, n: NodeId, w: bool, edgeTypes: Option<set<Label>>, x: Neighbour)
    requires x.Weighted? == w
    ensures var ok := Admits(edgeTypes, e.etype) && (x.Weighted? ==> x.weight == e.weight);
      multiset(View(if e.src == n then [Adj(e.dst, e.etype, e.weight)] else [], w, edgeTypes))[x] ==
        (if ok && e.src == n && e.dst == x.id then 1 else 0) &&
      multiset(View(if e.dst == n then [Adj(e.src, e.etype, e.weight)] else [], w, edgeTypes))[x] ==
        (if ok && e.dst == n && e.src == x.id then 1 else 0)
  {
    var ao, ai := Adj(e.dst, e.etype, e.weight), Adj(e.src, e.etype, e.weight);
    ViewOne(ao, w, edgeTypes, x);
    ViewOne(ai, w, edgeTypes, x);
    ToNeighbourIs(ao, w, x);
    ToNeighbourIs(ai, w, x);
    assert View([], w, edgeTypes) == [];
  }

  /** One edge's entries report `x` exactly as often as the edge contributes. */
  lemma EdgeViewCount(directed: bool, e: Edge, n: NodeId, dir: Direction, w: bool,
                      edgeTypes: Option<set<Label>>, x: Neighbour)
    requires x.Weighted? == w
    ensures multiset(View(EdgeEntries(directed, e, n, dir), w, edgeTypes))[x] ==
      Contribution(directed, e, n, dir, edgeTypes, x)
  {
    EdgeHalves(e, n, w, edgeTypes, x);
    if directed {
      DirectedEdgeView(e, n, dir, w, edgeTypes, x);
    } else {
      UndirectedEdgeView(e, n, dir, w, edgeTypes, x);
    }
  }

  lemma UndirectedEdgeView(e: Edge, n: NodeId, dir: Direction, w: bool,
                           edgeTypes: Option<set<Label>>, x: Neighbour)
    requires x.Weighted? == w
    requires var ok := Admits(edgeTypes, e.etype) && (x.Weighted? ==> x.weight == e.weight);
      multiset(View(if e.src == n then [Adj(e.dst, e.etype, e.weight)] else [], w, edgeTypes))[x] ==
        (if ok && e.src == n && e.dst == x.id then 1 else 0) &&
      multiset(View(if e.dst == n then [Adj(e.src, e.etype, e.weight)] else [], w, edgeTypes))[x] ==
        (if ok && e.dst == n && e.src == x.id then 1 else 0)
    ensures multiset(View(EdgeEntries(false, e, n, dir), w, edgeTypes))[x] ==
      Contribution(false, e, n, dir, edgeTypes, x)
  {
  }

  lemma DirectedEdgeView(e: Edge, n: NodeId, dir: Direction, w: bool,
                         edgeTypes: Option<set<Label>>, x: Neighbour)
    requires x.Weighted? == w
    requires var ok := Admits(edgeTypes, e.etype) && (x.Weighted? ==> x.weight == e.weight);
      multiset(View(if e.src == n then [Adj(e.dst, e.etype, e.weight)] else [], w, edgeTypes))[x] ==
        (if ok && e.src == n && e.dst == x.id then 1 else 0) &&
      multiset(View(if e.dst == n then [Adj(e.src, e.etype, e.weight)] else [], w, edgeTypes))[x] ==
        (if ok && e.dst == n && e.src == x.id then 1 else 0)
    ensures multiset(View(EdgeEntries(true, e, n, dir), w, edgeTypes))[x] ==
      Contribution(true, e, n, dir, edgeTypes, x)
  {
    var ok := Admits(edgeTypes, e.etype) && (x.Weighted? ==> x.weight == e.weight);
    var outs := if e.src == n then [Adj(e.dst, e.etype, e.weight)] else [];
    var ins := if e.dst == n then [Adj(e.src, e.etype, e.weight)] else [];
    var co := if ok && e.src == n && e.dst == x.id then 1 else 0;
    var ci := if ok && e.dst == n && e.src == x.id then 1 else 0;
    DirectedContribution(e, n, dir, edgeTypes, x, ok, co, ci);
    match dir
    case Out =>
      assert EdgeEntries(true, e, n, dir) == outs;
    case In =>
      assert EdgeEntries(true, e, n, dir) == ins;
    case Both =>
      BothEntriesView(e, n, w, edgeTypes, x, outs, ins);
  }

  /** A directed edge's contribution, half by half. */
  lemma DirectedContribution(e: Edge, n: NodeId, dir: Direction, edgeTypes: Option<set<Label>>, x: Neighbour,
                             ok: bool, co: nat, ci: nat)
    requires ok == (Admits(edgeTypes, e.etype) && (x.Weighted? ==> x.weight == e.weight))
    requires co == if ok && e.src == n && e.dst == x.id then 1 else 0
    requires ci == if ok && e.dst == n && e.src == x.id then 1 else 0
    ensures Contribution(true, e, n, dir, edgeTypes, x) ==
      match dir
      case Out => co
      case In => ci
      case Both => co + ci
  {
  }

  /** A directed edge reports `x` for `Both` as often as its two halves do. */
  lemma BothEntriesView(e: Edge, n: NodeId, w: bool, edgeTypes: Option<set<Label>>, x: Neighbour,
                        outs: seq<Adj>, ins: seq<Adj>)
    requires outs == if e.src == n then [Adj(e.dst, e.etype, e.weight)] else []
    requires ins == if e.dst == n then [Adj(e.src, e.etype, e.weight)] else []
    ensures multiset(View(EdgeEntries(true, e, n, Both), w, edgeTypes))[x] ==
      multiset(View(outs, w, edgeTypes))[x] + multiset(View(ins, w, edgeTypes))[x]
  {
    assert EdgeEntries(true, e, n, Both) == outs + ins;
    ViewMultisetAppend(outs, ins, w, edgeTypes);
  }

  /** A query on a node reports each result `x` exactly `EdgeCount` times:
      one entry per admitted edge joining the node to `x.id`, with that
      edge's weight, for every filter, direction and kind of graph. */
  lemma {:induction false} ViewCountsEdges(directed: bool, edges: seq<Edge>, n: NodeId, dir: Direction, w: bool,
                                           edgeTypes: Option<set<Label>>, x: Neighbour)
    requires x.Weighted? == w
    ensures multiset(View(Entries(directed, edges, n, dir), w, edgeTypes))[x] ==
      EdgeCount(directed, edges, n, dir, edgeTypes, x)
  {
    if |edges| > 0 {
      ViewCountsEdges(directed, edges[1..], n, dir, w, edgeTypes, x);
      EdgeViewCount(directed, edges[0], n, dir, w, edgeTypes, x);
      ViewMultisetAppend(EdgeEntries(directed, edges[0], n, dir), Entries(directed, edges[1..], n, dir), w, edgeTypes);
    }
  }

  /** A query on a node reports each `x` of the requested shape exactly as
      often as the admitted edges joining the node to `x.id` count it. */
  lemma QueryCountsEdges(g: Graph, n: NodeId, dir: Direction, w: bool, edgeTypes: Option<set<Label>>)
    requires n in g.nodeType
    ensures forall x: Neighbour :: x.Weighted? == w ==>
      multiset(Query(g, n, dir, w, edgeTypes).value)[x] == EdgeCount(g.directed, g.edges, n, dir, edgeTypes, x)
  {
    forall x: Neighbour | x.Weighted? == w
      ensures multiset(Query(g, n, dir, w, edgeTypes).value)[x] == EdgeCount(g.directed, g.edges, n, dir, edgeTypes, x)
    {
      ViewCountsEdges(g.directed, g.edges, n, dir, w, edgeTypes, x);
    }
  }

  // ---------------------------------------------------------------------
  // One entry per edge

  /** In a directed graph, `n`'s out-entries are its out-edges, one entry per
      edge, carrying that edge's type and weight (an absent weight stays absent). */
  lemma {:induction false} OutEntriesAreOutEdges(edges: seq<Edge>, n: NodeId, a: Adj)
    ensures multiset(Entries(true, edges, n, Out))[a] == multiset(edges)[Edge(n, a.node, a.etype, a.weight)]
  {
    if |edges| > 0 {
      assert edges == [edges[0]] + edges[1..];
      OutEntriesAreOutEdges(edges[1..], n, a);
    }
  }

  /** In a directed graph, `n`'s in-entries are its in-edges, one entry per edge. */
  lemma {:induction false} InEntriesAreInEdges(edges: seq<Edge>, n: NodeId, a: Adj)
    ensures multiset(Entries(true, edges, n, In))[a] == multiset(edges)[Edge(a.node, n, a.etype, a.weight)]
  {
    if |edges| > 0 {
      assert edges == [edges[0]] + edges[1..];
      InEntriesAreInEdges(edges[1..], n, a);
    }
  }

  /** In an undirected graph, an entry of `n` stands for an edge stored in
      either orientation; a self-loop counts once. */
  lemma {:induction false} UndirectedEntriesAreIncidentEdges(edges: seq<Edge>, n: NodeId, dir: Direction, a: Adj)
    ensures multiset(Entries(false, edges, n, dir))[a] ==
      multiset(edges)[Edge(n, a.node, a.etype, a.weight)] +
      (if a.node != n then multiset(edges)[Edge(a.node, n, a.etype, a.weight)] else 0)
  {
    if |edges| > 0 {
      assert edges == [edges[0]] + edges[1..];
      UndirectedEntriesAreIncidentEdges(edges[1..], n, dir, a);
      UndirectedEdgeEntry(edges[0], n, dir, a);
      assert multiset(Entries(false, edges, n, dir)) ==
        multiset(EdgeEntries(false, edges[0], n, dir)) + multiset(Entries(false, edges[1..], n, dir));
    }
  }

  /** The one-edge case: edge `e` gives `n` the entry `a` once for each
      orientation in which it joins `n` to `a.node`. */
  lemma UndirectedEdgeEntry(e: Edge, n: NodeId, dir: Direction, a: Adj)
    ensures multiset(EdgeEntries(false, e, n, dir))[a] ==
      (if e == Edge(n, a.node, a.etype, a.weight) then 1 else 0) +
      (if a.node != n && e == Edge(a.node, n, a.etype, a.weight) then 1 else 0)
  {
  }

  /** An entry of `n` comes from one edge of the list. */
  lemma {:induction false} EntriesComeFromEdges(directed: bool, edges: seq<Edge>, n: NodeId, dir: Direction, a: Adj)
    ensures a in Entries(directed, edges, n, dir) <==>
      exists i :: 0 <= i < |edges| && a in EdgeEntries(directed, edges[i], n, dir)
  {
    if |edges| > 0 {
      EntriesComeFromEdges(directed, edges[1..], n, dir, a);
      if a in Entries(directed, edges[1..], n, dir) {
        var i :| 0 <= i < |edges| - 1 && a in EdgeEntries(directed, edges[1..][i], n, dir);
        assert a in EdgeEntries(directed, edges[i + 1], n, dir);
      }
      if i :| 0 <= i < |edges| && a in EdgeEntries(directed, edges[i], n, dir) {
        if i > 0 { assert edges[i] == edges[1..][i - 1]; }
      }
    }
  }

  /** In a directed graph, the entries of both directions are the in- and
      out-entries together, with multiplicity. */
  lemma {:induction false} BothIsInPlusOut(edges: seq<Edge>, n: NodeId)
    ensures multiset(Entries(true, edges, n, Both)) ==
      multiset(Entries(true, edges, n, In)) + multiset(Entries(true, edges, n, Out))
  {
    if |edges| > 0 {
      BothIsInPlusOut(edges[1..], n);
    }
  }

  /** In an undirected graph the direction does not matter. */
  lemma {:induction false} UndirectedIgnoresDirection(edges: seq<Edge>, n: NodeId, d1: Direction, d2: Direction)
    ensures Entries(false, edges, n, d1) == Entries(false, edges, n, d2)
  {
    if |edges| > 0 {
      UndirectedIgnoresDirection(edges[1..], n, d1, d2);
    }
  }

  lemma {:induction false} FilterAppend(s: seq<Adj>, u: seq<Adj>, edgeTypes: Option<set<Label>>)
    ensures FilterTypes(s + u, edgeTypes) == FilterTypes(s, edgeTypes) + FilterTypes(u, edgeTypes)
  {
    if |s| > 0 {
      assert (s + u)[1..] == s[1..] + u;
      FilterAppend(s[1..], u, edgeTypes);
    } else {
      assert s + u == u;
    }
  }

  lemma ProjectAppend(s: seq<Adj>, u: seq<Adj>, includeEdgeWeight: bool)
    ensures Project(s + u, includeEdgeWeight) == Project(s, includeEdgeWeight) + Project(u, includeEdgeWeight)
  {
    var l := Project(s + u, includeEdgeWeight);
    var r := Project(s, includeEdgeWeight) + Project(u, includeEdgeWeight);
    forall i | 0 <= i < |l| ensures l[i] == r[i] {
      if i < |s| { assert (s + u)[i] == s[i]; } else { assert (s + u)[i] == u[i - |s|]; }
    }
  }

  /** What a query reports for a concatenation splits accordingly. */
  lemma ViewMultisetAppend(s: seq<Adj>, u: seq<Adj>, w: bool, edgeTypes: Option<set<Label>>)
    ensures multiset(View(s + u, w, edgeTypes)) ==
      multiset(View(s, w, edgeTypes)) + multiset(View(u, w, edgeTypes))
  {
    FilterAppend(s, u, edgeTypes);
    ProjectAppend(FilterTypes(s, edgeTypes), FilterTypes(u, edgeTypes), w);
  }

  /** In a directed graph, what a query reports for both directions is what it
      reports for the in- and the out-entries together. */
  lemma {:induction false} BothViewIsInPlusOut(edges: seq<Edge>, n: NodeId, w: bool, edgeTypes: Option<set<Label>>)
    ensures multiset(View(Entries(true, edges, n, Both), w, edgeTypes)) ==
      multiset(View(Entries(true, edges, n, In), w, edgeTypes)) +
      multiset(View(Entries(true, edges, n, Out), w, edgeTypes))
  {
    if |edges| > 0 {
      var e := edges[0];
      var eo, ei := EdgeEntries(true, e, n, Out), EdgeEntries(true, e, n, In);
      var ro, ri, rb := Entries(true, edges[1..], n, Out), Entries(true, edges[1..], n, In), Entries(true, edges[1..], n, Both);
      BothViewIsInPlusOut(edges[1..], n, w, edgeTypes);
      assert EdgeEntries(true, e, n, Both) == eo + ei;
      ViewMultisetAppend(eo + ei, rb, w, edgeTypes);
      ViewMultisetAppend(eo, ei, w, edgeTypes);
      ViewMultisetAppend(ei, ri, w, edgeTypes);
      ViewMultisetAppend(eo, ro, w, edgeTypes);
      assert Entries(true, edges, n, Both) == (eo + ei) + rb;
      assert Entries(true, edges, n, In) == ei + ri;
      assert Entries(true, edges, n, Out) == eo + ro;
    }
  }

  // ---------------------------------------------------------------------
  // Query-level properties

  /** In a directed graph, `neighbors(n)` is `in_nodes(n)` and `out_nodes(n)`
      together, with multiplicity, for every filter and weight option. */
  lemma DirectedNeighborsAreInPlusOut(g: Graph, n: NodeId, w: bool, edgeTypes: Option<set<Label>>)
    requires g.directed && n in g.nodeType
    ensures Neighbors(g, n, w, edgeTypes).Ok?
    ensures multiset(Neighbors(g, n, w, edgeTypes).value) ==
      multiset(InNodes(g, n, w, edgeTypes).value) + multiset(OutNodes(g, n, w, edgeTypes).value)
  {
    BothViewIsInPlusOut(g.edges, n, w, edgeTypes);
  }

  /** In an undirected graph, `neighbors`, `in_nodes` and `out_nodes` agree. */
  lemma UndirectedNeighborMethodsAgree(g: Graph, n: NodeId, w: bool, edgeTypes: Option<set<Label>>)
    requires !g.directed
    ensures Neighbors(g, n, w, edgeTypes) == InNodes(g, n, w, edgeTypes)
    ensures Neighbors(g, n, w, edgeTypes) == OutNodes(g, n, w, edgeTypes)
  {
    UndirectedIgnoresDirection(g.edges, n, Both, In);
    UndirectedIgnoresDirection(g.edges, n, Both, Out);
  }

  /** Asking for weights only adds them: the neighbours are the same, in the same order. */
  lemma WeightsOnlyDecorate(g: Graph, n: NodeId, dir: Direction, edgeTypes: Option<set<Label>>)
    ensures Query(g, n, dir, true, edgeTypes).Ok? == Query(g, n, dir, false, edgeTypes).Ok?
    ensures Query(g, n, dir, true, edgeTypes).Ok? ==>
      var plain := Query(g, n, dir, false, edgeTypes).value;
      var weighted := Query(g, n, dir, true, edgeTypes).value;
      |plain| == |weighted| &&
      forall i :: 0 <= i < |plain| ==> plain[i] == Plain(weighted[i].id)
  {
  }

  /** A filter that no entry of `n` passes gives an empty list, not an error. */
  lemma UnmatchedFilterIsEmpty(g: Graph, n: NodeId, dir: Direction, w: bool, edgeTypes: set<Label>)
    requires n in g.nodeType
    requires forall a :: a in Entries(g.directed, g.edges, n, dir) ==> a.etype !in edgeTypes
    ensures Query(g, n, dir, w, Some(edgeTypes)) == Ok([])
  {
    FilterNone(Entries(g.directed, g.edges, n, dir), Some(edgeTypes));
  }

  lemma {:induction false} ProjectSingleType(s: seq<Adj>, t: Label, v: NodeId, wt: Option<real>)
    requires forall a :: a in s ==> a.etype == t
    ensures multiset(Project(s, true))[Weighted(v, wt)] == multiset(s)[Adj(v, t, wt)]
  {
    if |s| > 0 {
      assert forall a :: a in s[1..] ==> a.etype == t by {
        forall a | a in s[1..] ensures a.etype == t { assert a in s; }
      }
      ProjectSingleType(s[1..], t, v, wt);
      assert s[0] in s;
      EntryCountHead(s, Adj(v, t, wt));
      ResultCountHead(s, true, Weighted(v, wt));
    }
  }

  /** Counting in a list of entries: the head, then the rest. */
  lemma EntryCountHead(s: seq<Adj>, x: Adj)
    requires |s| > 0
    ensures multiset(s)[x] == multiset(s[1..])[x] + (if s[0] == x then 1 else 0)
  {
    assert s == [s[0]] + s[1..];
  }

  /** Counting in a projected list: the head's result, then the rest. */
  lemma ResultCountHead(s: seq<Adj>, w: bool, y: Neighbour)
    requires |s| > 0
    ensures multiset(Project(s, w))[y] == multiset(Project(s[1..], w))[y] + (if ToNeighbour(s[0], w) == y then 1 else 0)
  {
    assert Project(s, w) == [ToNeighbour(s[0], w)] + Project(s[1..], w);
  }

  /** With a one-type filter in a directed graph, `out_nodes(n, include_edge_weight=True)`
      lists `(v, w)` once per edge `n -> v` of that type and weight: parallel
      edges repeat the neighbour and an unweighted edge gives `None`. */
  lemma DirectedOutNodesCountEdges(g: Graph, n: NodeId, t: Label, v: NodeId, wt: Option<real>)
    requires g.directed && n in g.nodeType
    ensures OutNodes(g, n, true, Some({t})).Ok?
    ensures multiset(OutNodes(g, n, true, Some({t})).value)[Weighted(v, wt)] ==
      multiset(g.edges)[Edge(n, v, t, wt)]
  {
    var es := Entries(true, g.edges, n, Out);
    ProjectSingleType(FilterTypes(es, Some({t})), t, v, wt);
    FilterKeepsExactly(es, Some({t}), Adj(v, t, wt));
    OutEntriesAreOutEdges(g.edges, n, Adj(v, t, wt));
  }

  /** The same for `in_nodes`: one `(u, w)` per edge `u -> n` of that type and weight. */
  lemma DirectedInNodesCountEdges(g: Graph, n: NodeId, t: Label, u: NodeId, wt: Option<real>)
    requires g.directed && n in g.nodeType
    ensures InNodes(g, n, true, Some({t})).Ok?
    ensures multiset(InNodes(g, n, true, Some({t})).value)[Weighted(u, wt)] ==
      multiset(g.edges)[Edge(u, n, t, wt)]
  {
    var es := Entries(true, g.edges, n, In);
    ProjectSingleType(FilterTypes(es, Some({t})), t, u, wt);
    FilterKeepsExactly(es, Some({t}), Adj(u, t, wt));
    InEntriesAreInEdges(g.edges, n, Adj(u, t, wt));
  }

  /** In an undirected graph with a one-type filter, `neighbors(n, include_edge_weight=True)`
      lists `(v, w)` once per edge between `n` and `v` of that type and weight,
      stored in either orientation; a self-loop counts once. */
  lemma UndirectedNeighborsCountEdges(g: Graph, n: NodeId, t: Label, v: NodeId, wt: Option<real>)
    requires !g.directed && n in g.nodeType
    ensures Neighbors(g, n, true, Some({t})).Ok?
    ensures multiset(Neighbors(g, n, true, Some({t})).value)[Weighted(v, wt)] ==
      multiset(g.edges)[Edge(n, v, t, wt)] + (if v != n then multiset(g.edges)[Edge(v, n, t, wt)] else 0)
  {
    var es := Entries(false, g.edges, n, Both);
    ProjectSingleType(FilterTypes(es, Some({t})), t, v, wt);
    FilterKeepsExactly(es, Some({t}), Adj(v, t, wt));
    UndirectedEntriesAreIncidentEdges(g.edges, n, Both, Adj(v, t, wt));
  }
}

=== FILE: scenarios.dfy ===
/** The concrete graphs of the store's test suite and the assertions made
    about them, stated as lemmas about the model. */
module Scenarios {
  import opened Wrappers
  import opened Graph
  import opened Features
  import opened Neighbours
  import opened Schema

  /** A vector of width `w` whose entries all equal the node id. */
  function Vec(w: nat, id: NodeId): (v: seq<real>)
    ensures |v| == w
  {
    seq(w, _ => id as real)
  }

  const HinOrder: seq<NodeId> := [0, 1, 2, 3, 4, 5, 6]
  const HinTypes: map<NodeId, Label> :=
    map[0 := "A", 1 := "A", 2 := "A", 3 := "A", 4 := "B", 5 := "B", 6 := "B"]

  const HinEdges: seq<Edge> :=
    [Edge(0, 4, "R", None), Edge(1, 4, "R", None), Edge(1, 5, "R", None),
     Edge(2, 4, "R", None), Edge(3, 5, "R", None), Edge(4, 5, "F", None)]

  const HinFeatures: map<Label, TypeFeatures> :=
    map["A" := TypeFeatures(4, map[0 := Vec(4, 0), 1 := Vec(4, 1), 2 := Vec(4, 2), 3 := Vec(4, 3)]),
        "B" := TypeFeatures(2, map[4 := Vec(2, 4), 5 := Vec(2, 5)])]

  /** The heterogeneous example: nodes 0-3 of type "A", 4-6 of type "B",
      "R" edges from A to B and one "F" edge between B nodes. Nodes 0-5
      carry vectors of width 4 (type A) or 2 (type B); node 6 has none. */
  function Hin(): (g: Graph)
    ensures Valid(g)
  {
    HinOrderFits();
    HinEdgesKnown();
    HinFits();
    Graph(HinOrder, HinTypes, HinEdges, false, HinFeatures)
  }

  /** The node order lists every node of the example once. */
  lemma HinOrderFits()
    ensures Distinct(HinOrder)
    ensures forall id :: id in HinTypes ==> id in HinOrder
    ensures forall i :: 0 <= i < |HinOrder| ==> HinOrder[i] in HinTypes
  {
  }

  lemma HinEdgesKnown()
    ensures EdgesKnown(HinTypes, HinEdges)
  {
  }

  /** Each stored vector of the example belongs to a node of its table's type
      and has that table's width. */
  lemma HinFits()
    ensures FeaturesFit(HinTypes, HinFeatures)
  {
    assert HinTypes[0] == "A" && HinTypes[4] == "B";
    assert TableFits(HinTypes, "A", HinFeatures["A"]);
    assert TableFits(HinTypes, "B", HinFeatures["B"]);
  }

  lemma HinTables()
    ensures TypeNodes(Hin(), "A") == [0, 1, 2, 3]
    ensures TypeNodes(Hin(), "B") == [4, 5, 6]
  {
    HinTypeLists();
  }

  /** The example's nodes of each type, in node order. */
  lemma HinTypeLists()
    ensures NodesOfType(HinOrder, HinTypes, "A") == [0, 1, 2, 3]
    ensures NodesOfType(HinOrder, HinTypes, "B") == [4, 5, 6]
  {
    assert NodesOfType(HinOrder, HinTypes, "A") == [0, 1, 2, 3];
  }

  /** Positions are taken in the type's own node list: the "B" nodes 4, 5
      and 6 sit at positions 0, 1 and 2, and a batch of "A" and "B" nodes
      has no single table to index. */
  lemma HinIndexForNodes()
    ensures IndexForNodes(Hin(), [4, 5, 6], None) == Ok([0, 1, 2])
  {
    var g := Hin();
    var ids := [4, 5, 6];
    var batch := Present(ids);
    assert AllKnown(g, batch);
    assert !AllNull(batch) by { assert batch[0].Some?; }
    assert !SpansSeveralTypes(g, batch);
    var r := IndexForNodes(g, ids, None);
    assert forall i :: 0 <= i < 3 ==> g.nodeType[ids[i]] == "B";
    HinTables();
    ThreePositions(TypeNodes(g, "B"), ids, r.value);
  }

  /** Naming the type "B" explicitly gives the same positions. */
  lemma HinIndexForNodesTyped()
    ensures IndexForNodes(Hin(), [4, 5, 6], Some("B")) == Ok([0, 1, 2])
  {
    var g := Hin();
    var ids := [4, 5, 6];
    var batch := Present(ids);
    assert AllKnown(g, batch);
    assert AllOfType(g, batch, "B");
    HinNodeTypes();
    var r := IndexForNodes(g, ids, Some("B"));
    HinTables();
    ThreePositions(TypeNodes(g, "B"), ids, r.value);
  }

  /** The "A" nodes 0 to 3 sit at positions 0 to 3 of their table, whether
      the type is inferred or named. */
  lemma HinIndexForTypeA(t: Option<Label>)
    requires t == None || t == Some("A")
    ensures IndexForNodes(Hin(), [0, 1, 2, 3], t) == Ok([0, 1, 2, 3])
  {
    var g := Hin();
    var ids := [0, 1, 2, 3];
    HinBatchA(g, Present(ids));
    HinNodeTypes();
    var r := IndexForNodes(g, ids, t);
    HinTables();
    FourPositions(TypeNodes(g, "A"), ids, r.value);
  }

  lemma HinBatchA(g: Graph, batch: seq<Option<NodeId>>)
    requires g.nodeType == HinTypes && batch == Present([0, 1, 2, 3])
    ensures AllKnown(g, batch) && AllOfType(g, batch, "A")
    ensures !AllNull(batch) && !SpansSeveralTypes(g, batch)
  {
    assert batch[0].Some?;
  }

  lemma HinMixedIndex()
    ensures IndexForNodes(Hin(), [1, 2, 5], None) == Err(MixedNodeTypes)
  {
    var g := Hin();
    var mixed := Present([1, 2, 5]);
    assert AllKnown(g, mixed);
    assert g.nodeType[mixed[0].value] != g.nodeType[mixed[2].value];
  }

  /** The positions in [4, 5, 6] of 4, 5 and 6. */
  lemma ThreePositions(table: seq<NodeId>, ids: seq<NodeId>, r: seq<nat>)
    requires table == [4, 5, 6] && ids == [4, 5, 6] && |r| == 3
    requires forall i :: 0 <= i < 3 ==> r[i] < |table| && table[r[i]] == ids[i]
    ensures r == [0, 1, 2]
  {
  }

  /** The positions in [0, 1, 2, 3] of 0, 1, 2 and 3. */
  lemma FourPositions(table: seq<NodeId>, ids: seq<NodeId>, r: seq<nat>)
    requires table == [0, 1, 2, 3] && ids == [0, 1, 2, 3] && |r| == 4
    requires forall i :: 0 <= i < 4 ==> r[i] < |table| && table[r[i]] == ids[i]
    ensures r == [0, 1, 2, 3]
  {
  }

  /** The row a lookup of type `ty` gives for one id of the batch. */
  function RowFor(g: Graph, ty: Label, id: Option<NodeId>): seq<real>
    requires Valid(g)
  {
    if id.None? then Zeros(Width(g, ty)) else StoredOrZero(g, ty, id.value)
  }

  /** A lookup of three ids, row by row. */
  lemma ThreeRows(g: Graph, ids: seq<Option<NodeId>>, t: Option<Label>, ty: Label, r0: seq<real>, r1: seq<real>, r2: seq<real>)
    requires Valid(g) && ResolveType(g, ids, t) == Ok(ty) && |ids| == 3
    requires r0 == RowFor(g, ty, ids[0]) && r1 == RowFor(g, ty, ids[1]) && r2 == RowFor(g, ty, ids[2])
    ensures NodeFeatures(g, ids, t) == Ok([r0, r1, r2])
  {
    NodeFeaturesRows(g, ids, t, ty, [r0, r1, r2]);
  }

  /** A lookup of two ids, row by row. */
  lemma TwoRows(g: Graph, ids: seq<Option<NodeId>>, t: Option<Label>, ty: Label, r0: seq<real>, r1: seq<real>)
    requires Valid(g) && ResolveType(g, ids, t) == Ok(ty) && |ids| == 2
    requires r0 == RowFor(g, ty, ids[0]) && r1 == RowFor(g, ty, ids[1])
    ensures NodeFeatures(g, ids, t) == Ok([r0, r1])
  {
    NodeFeaturesRows(g, ids, t, ty, [r0, r1]);
  }

  /** A lookup of four ids, row by row. */
  lemma FourRows(g: Graph, ids: seq<Option<NodeId>>, t: Option<Label>, ty: Label,
                 r0: seq<real>, r1: seq<real>, r2: seq<real>, r3: seq<real>)
    requires Valid(g) && ResolveType(g, ids, t) == Ok(ty) && |ids| == 4
    requires r0 == RowFor(g, ty, ids[0]) && r1 == RowFor(g, ty, ids[1])
    requires r2 == RowFor(g, ty, ids[2]) && r3 == RowFor(g, ty, ids[3])
    ensures NodeFeatures(g, ids, t) == Ok([r0, r1, r2, r3])
  {
    NodeFeaturesRows(g, ids, t, ty, [r0, r1, r2, r3]);
  }

  /** The "A" rows of the example are the stored vectors of nodes 0 to 3. */
  lemma HinStoredA()
    ensures RowFor(Hin(), "A", Some(0)) == Vec(4, 0)
    ensures RowFor(Hin(), "A", Some(1)) == Vec(4, 1)
    ensures RowFor(Hin(), "A", Some(2)) == Vec(4, 2)
    ensures RowFor(Hin(), "A", Some(3)) == Vec(4, 3)
  {
    StoredRowsA(Hin());
  }

  lemma StoredRowsA(g: Graph)
    requires Valid(g) && g.features == HinFeatures
    ensures forall k :: 0 <= k < 4 ==> RowFor(g, "A", Some(k)) == Vec(4, k)
  {
    var vs := map[0 := Vec(4, 0), 1 := Vec(4, 1), 2 := Vec(4, 2), 3 := Vec(4, 3)];
    assert g.features["A"].vectors == vs;
    forall k | 0 <= k < 4 ensures RowFor(g, "A", Some(k)) == Vec(4, k) {
      StoredRow(g, "A", vs, k);
    }
  }

  /** A node with a vector in its type's table gets that vector. */
  lemma StoredRow(g: Graph, t: Label, vs: map<NodeId, seq<real>>, id: NodeId)
    requires Valid(g) && t in g.features && g.features[t].vectors == vs && id in vs
    ensures RowFor(g, t, Some(id)) == vs[id]
  {
  }

  /** The "A" nodes 0 to 3 resolve to the named type "A". */
  lemma HinResolveA()
    ensures ResolveType(Hin(), [Some(0), Some(1), Some(2), Some(3)], Some("A")) == Ok("A")
  {
    ResolveAOn(Hin(), [Some(0), Some(1), Some(2), Some(3)]);
  }

  lemma ResolveAOn(g: Graph, ids: seq<Option<NodeId>>)
    requires g.nodeType == HinTypes && ids == [Some(0), Some(1), Some(2), Some(3)]
    ensures ResolveType(g, ids, Some("A")) == Ok("A")
  {
    assert AllKnown(g, ids) && AllOfType(g, ids, "A");
    assert "A" in NodeTypes(g) by { assert g.nodeType[0] == "A"; }
  }

  /** The "B" nodes 4 and 5 resolve to the named type "B". */
  lemma HinResolvePairB()
    ensures ResolveType(Hin(), [Some(4), Some(5)], Some("B")) == Ok("B")
  {
    ResolvePairBOn(Hin(), [Some(4), Some(5)]);
  }

  lemma ResolvePairBOn(g: Graph, ids: seq<Option<NodeId>>)
    requires g.nodeType == HinTypes && ids == [Some(4), Some(5)]
    ensures ResolveType(g, ids, Some("B")) == Ok("B")
  {
    assert AllKnown(g, ids) && AllOfType(g, ids, "B");
    assert "B" in NodeTypes(g) by { assert g.nodeType[4] == "B"; }
  }

  /** Looking up nodes 0 to 3 as "A" gives their four vectors of width 4. */
  lemma HinLookupA()
    ensures NodeFeatures(Hin(), [Some(0), Some(1), Some(2), Some(3)], Some("A")) ==
      Ok([Vec(4, 0), Vec(4, 1), Vec(4, 2), Vec(4, 3)])
  {
    HinResolveA();
    HinStoredA();
    FourRows(Hin(), [Some(0), Some(1), Some(2), Some(3)], Some("A"), "A", Vec(4, 0), Vec(4, 1), Vec(4, 2), Vec(4, 3));
  }

  /** Looking up nodes 4 and 5 as "B" gives their two vectors of width 2. */
  lemma HinLookupPairB()
    ensures NodeFeatures(Hin(), [Some(4), Some(5)], Some("B")) == Ok([Vec(2, 4), Vec(2, 5)])
  {
    HinResolvePairB();
    HinStoredB();
    TwoRows(Hin(), [Some(4), Some(5)], Some("B"), "B", Vec(2, 4), Vec(2, 5));
  }

  /** The "B" rows of the example: the stored vectors for 4 and 5, zeros for
      6 and for a null id. */
  lemma HinStoredB()
    ensures RowFor(Hin(), "B", Some(4)) == Vec(2, 4)
    ensures RowFor(Hin(), "B", Some(5)) == Vec(2, 5)
    ensures RowFor(Hin(), "B", Some(6)) == Zeros(2)
    ensures RowFor(Hin(), "B", None) == Zeros(2)
  {
    var g := Hin();
    assert Width(g, "B") == 2;
    assert g.features["B"].vectors == map[4 := Vec(2, 4), 5 := Vec(2, 5)];
  }

  /** A batch of "B" nodes resolves to "B", whether or not the type is given. */
  lemma HinResolveB()
    ensures ResolveType(Hin(), [Some(4), Some(5), Some(6)], Some("B")) == Ok("B")
  {
    var g := Hin();
    var ids := [Some(4), Some(5), Some(6)];
    assert AllKnown(g, ids) && AllOfType(g, ids, "B");
    assert "B" in NodeTypes(g) by { assert g.nodeType[4] == "B"; }
  }

  /** The one non-null id decides the type of a batch with null ids. */
  lemma HinResolveNulls()
    ensures ResolveType(Hin(), [None, Some(5), None], None) == Ok("B")
  {
    var g := Hin();
    var ids := [None, Some(5), None];
    assert AllKnown(g, ids);
    assert !AllNull(ids) by { assert ids[1].Some?; }
    assert !SpansSeveralTypes(g, ids) by {
      assert forall i :: 0 <= i < 3 && ids[i].Some? ==> i == 1;
    }
    assert AllOfType(g, ids, ResolveType(g, ids, None).value);
  }

  /** Lookups of "B" nodes: the stored vectors for 4 and 5, zeros for 6,
      which has none. */
  lemma HinStoredOrMissing()
    ensures NodeFeatures(Hin(), [Some(4), Some(5), Some(6)], Some("B")) == Ok([Vec(2, 4), Vec(2, 5), Zeros(2)])
  {
    HinResolveB();
    HinStoredB();
    ThreeRows(Hin(), [Some(4), Some(5), Some(6)], Some("B"), "B", Vec(2, 4), Vec(2, 5), Zeros(2));
  }

  /** Null ids take zero rows; the type comes from the one non-null id. */
  lemma HinNullIds()
    ensures NodeFeatures(Hin(), [None, Some(5), None], None) == Ok([Zeros(2), Vec(2, 5), Zeros(2)])
  {
    HinResolveNulls();
    HinStoredB();
    ThreeRows(Hin(), [None, Some(5), None], None, "B", Zeros(2), Vec(2, 5), Zeros(2));
  }

  /** A batch of an "A" node and a "B" node has no single type. */
  lemma HinMixedLookup()
    ensures NodeFeatures(Hin(), [Some(1), Some(5)], None) == Err(MixedNodeTypes)
  {
    var g := Hin();
    var ids := [Some(1), Some(5)];
    assert AllKnown(g, ids);
    assert g.nodeType[ids[0].value] != g.nodeType[ids[1].value];
  }

  /** An explicit type that the nodes do not have is refused, null ids or not. */
  lemma HinWrongTypeLookup()
    ensures NodeFeatures(Hin(), [Some(4), Some(5)], Some("A")) == Err(WrongNodeType("A"))
    ensures NodeFeatures(Hin(), [None, Some(5), None], Some("A")) == Err(WrongNodeType("A"))
  {
    var g := Hin();
    var ids := [Some(4), Some(5)];
    assert AllKnown(g, ids) && g.nodeType[ids[0].value] != "A";
    var withNulls := [None, Some(5), None];
    assert AllKnown(g, withNulls) && g.nodeType[withNulls[1].value] != "A";
  }

  /** A batch of null ids only gives no type to look up. */
  lemma HinNullLookup()
    ensures NodeFeatures(Hin(), [None, None], None) == Err(NoNodeType)
  {
    var g := Hin();
    var ids: seq<Option<NodeId>> := [None, None];
    assert AllKnown(g, ids) && AllNull(ids);
  }

  /** An id that is not a node is reported. */
  lemma HinUnknownLookup()
    ensures NodeFeatures(Hin(), [Some(4), Some(9)], None) == Err(AbsentId(9))
  {
    var g := Hin();
    var ids := [Some(4), Some(9)];
    assert !AllKnown(g, ids) by { assert ids[1].value !in g.nodeType; }
    FirstUnknownAt(g, ids, 1);
  }

  /** `node_types` and `node_feature_sizes` of the example. */
  lemma HinNodeTypes()
    ensures NodeTypes(Hin()) == {"A", "B"}
  {
    HinLabels();
  }

  lemma HinLabels()
    ensures LabelsOf(HinTypes) == {"A", "B"}
  {
    assert HinTypes[0] == "A" && HinTypes[4] == "B";
  }

  lemma HinFeatureSizes()
    ensures NodeFeatureSizes(Hin()).Keys == {"A", "B"}
    ensures NodeFeatureSizes(Hin())["A"] == 4 && NodeFeatureSizes(Hin())["B"] == 2
  {
    var g := Hin();
    HinNodeTypes();
    var r := NodeFeatureSizes(g);
    assert r["A"] == Width(g, "A") == 4;
    assert r["B"] == Width(g, "B") == 2;
  }

  /** The edges of the four-node neighbour examples: two parallel `aa` edges
      from 0 to 1 with weights `w0` and `w1`, and `ab` edges of weight `w2`
      from 1 to 2 and from 1 to 3. */
  function FourEdges(aa: Label, ab: Label, w0: Option<real>, w1: Option<real>, w2: Option<real>)
    : seq<Edge>
  {
    [Edge(0, 1, aa, w0), Edge(0, 1, aa, w1), Edge(1, 2, ab, w2), Edge(1, 3, ab, w2)]
  }

  function FourNodes(directed: bool, nt: map<NodeId, Label>, es: seq<Edge>): (g: Graph)
    requires nt.Keys == {0, 1, 2, 3}
    requires |es| == 4
    requires es == FourEdges(es[0].etype, es[2].etype, es[0].weight, es[1].weight, es[2].weight)
    ensures Valid(g)
  {
    Graph([0, 1, 2, 3], nt, es, directed, map[])
  }

  /** Nodes 0 and 1 of type "A", 2 and 3 of type "B"; the "AA" edges weigh
      0 and 1, the "AB" edges 10. */
  function WeightedHin(directed: bool): Graph {
    FourNodes(directed, map[0 := "A", 1 := "A", 2 := "B", 3 := "B"],
      FourEdges("AA", "AB", Some(0.0), Some(1.0), Some(10.0)))
  }

  /** The same shape with every label the default one and no weights. */
  function UnweightedHom(directed: bool): Graph {
    FourNodes(directed, map[0 := DefaultLabel, 1 := DefaultLabel, 2 := DefaultLabel, 3 := DefaultLabel],
      FourEdges(DefaultLabel, DefaultLabel, None, None, None))
  }

  /** The adjacency list of a four-edge graph, edge by edge. */
  lemma EntriesOfFour(directed: bool, es: seq<Edge>, n: NodeId, dir: Direction)
    requires |es| == 4
    ensures Entries(directed, es, n, dir) ==
      EdgeEntries(directed, es[0], n, dir) + EdgeEntries(directed, es[1], n, dir) +
      EdgeEntries(directed, es[2], n, dir) + EdgeEntries(directed, es[3], n, dir)
  {
    var e0, e1, e2, e3 := EdgeEntries(directed, es[0], n, dir), EdgeEntries(directed, es[1], n, dir),
      EdgeEntries(directed, es[2], n, dir), EdgeEntries(directed, es[3], n, dir);
    assert es[3..][1..] == [];
    assert Entries(directed, es[3..], n, dir) == e3;
    assert es[2..][1..] == es[3..];
    assert Entries(directed, es[2..], n, dir) == e2 + e3;
    assert es[1..][1..] == es[2..];
    assert Entries(directed, es[1..], n, dir) == e1 + (e2 + e3);
  }

  /** What a query reports for one entry: the entry as a result, or nothing
      when the filter drops it. */
  function Seen(a: Adj, w: bool, edgeTypes: Option<set<Label>>): seq<Neighbour> {
    if Admits(edgeTypes, a.etype) then [ToNeighbour(a, w)] else []
  }

  /** A view is built one entry at a time. */
  lemma ViewCons(a: Adj, s: seq<Adj>, w: bool, edgeTypes: Option<set<Label>>)
    ensures View([a] + s, w, edgeTypes) == Seen(a, w, edgeTypes) + View(s, w, edgeTypes)
  {
    assert ([a] + s)[1..] == s;
  }

  /** The view of a four-entry list, entry by entry. */
  lemma ViewOfFour(s: seq<Adj>, w: bool, edgeTypes: Option<set<Label>>)
    requires |s| == 4
    ensures View(s, w, edgeTypes) ==
      Seen(s[0], w, edgeTypes) + (Seen(s[1], w, edgeTypes) + (Seen(s[2], w, edgeTypes) + Seen(s[3], w, edgeTypes)))
  {
    var h0, h1, h2, h3 := Seen(s[0], w, edgeTypes), Seen(s[1], w, edgeTypes),
      Seen(s[2], w, edgeTypes), Seen(s[3], w, edgeTypes);
    assert View(s[2..], w, edgeTypes) == h2 + h3 by {
      ViewOfTwo(s[2..], w, edgeTypes);
    }
    assert View(s[1..], w, edgeTypes) == h1 + (h2 + h3) by {
      assert s[1..] == [s[1]] + s[2..];
      ViewCons(s[1], s[2..], w, edgeTypes);
    }
    assert s == [s[0]] + s[1..];
    ViewCons(s[0], s[1..], w, edgeTypes);
  }

  /** The view of a two-entry list, entry by entry. */
  lemma ViewOfTwo(s: seq<Adj>, w: bool, edgeTypes: Option<set<Label>>)
    requires |s| == 2
    ensures View(s, w, edgeTypes) == Seen(s[0], w, edgeTypes) + Seen(s[1], w, edgeTypes)
  {
    assert s[1..] == [s[1]] + [];
    ViewCons(s[1], [], w, edgeTypes);
    assert s == [s[0]] + s[1..];
    ViewCons(s[0], s[1..], w, edgeTypes);
  }

  /** Node 1's query results in a four-edge graph: in a directed graph the two
      parallel edges come in and the other two go out; in an undirected one
      every direction sees all four. */
  lemma NodeOneQuery(g: Graph, dir: Direction, w: bool, edgeTypes: Option<set<Label>>,
                     aa: Label, ab: Label, w0: Option<real>, w1: Option<real>, w2: Option<real>)
    requires g.edges == FourEdges(aa, ab, w0, w1, w2) && 1 in g.nodeType
    ensures Query(g, 1, dir, w, edgeTypes) == Ok(
      var a0, a1, a2, a3 := Adj(0, aa, w0), Adj(0, aa, w1), Adj(2, ab, w2), Adj(3, ab, w2);
      if g.directed && dir == In then Seen(a0, w, edgeTypes) + Seen(a1, w, edgeTypes)
      else if g.directed && dir == Out then Seen(a2, w, edgeTypes) + Seen(a3, w, edgeTypes)
      else Seen(a0, w, edgeTypes) + (Seen(a1, w, edgeTypes) + (Seen(a2, w, edgeTypes) + Seen(a3, w, edgeTypes))))
  {
    EntriesOfFour(g.directed, g.edges, 1, dir);
    var s := Entries(g.directed, g.edges, 1, dir);
    if g.directed && dir == In {
      ViewOfTwo(s, w, edgeTypes);
    } else if g.directed && dir == Out {
      ViewOfTwo(s, w, edgeTypes);
    } else {
      ViewOfFour(s, w, edgeTypes);
    }
  }

  /** Node 1's neighbours in the weighted example, entry by entry. */
  lemma WeightedHinQuery(directed: bool, dir: Direction, w: bool, edgeTypes: Option<set<Label>>)
    ensures Query(WeightedHin(directed), 1, dir, w, edgeTypes) == Ok(
      var a0, a1 := Adj(0, "AA", Some(0.0)), Adj(0, "AA", Some(1.0));
      var a2, a3 := Adj(2, "AB", Some(10.0)), Adj(3, "AB", Some(10.0));
      if directed && dir == In then Seen(a0, w, edgeTypes) + Seen(a1, w, edgeTypes)
      else if directed && dir == Out then Seen(a2, w, edgeTypes) + Seen(a3, w, edgeTypes)
      else Seen(a0, w, edgeTypes) + (Seen(a1, w, edgeTypes) + (Seen(a2, w, edgeTypes) + Seen(a3, w, edgeTypes))))
  {
    var g := WeightedHin(directed);
    assert g.edges == FourEdges("AA", "AB", Some(0.0), Some(1.0), Some(10.0)) && 1 in g.nodeType;
    NodeOneQuery(g, dir, w, edgeTypes, "AA", "AB", Some(0.0), Some(1.0), Some(10.0));
  }

  /** Node 1's neighbours in the unweighted example, entry by entry. */
  lemma UnweightedHomQuery(directed: bool, dir: Direction, w: bool, edgeTypes: Option<set<Label>>)
    ensures Query(UnweightedHom(directed), 1, dir, w, edgeTypes) == Ok(
      var d := DefaultLabel;
      var a0, a2, a3 := Adj(0, d, None), Adj(2, d, None), Adj(3, d, None);
      if directed && dir == In then Seen(a0, w, edgeTypes) + Seen(a0, w, edgeTypes)
      else if directed && dir == Out then Seen(a2, w, edgeTypes) + Seen(a3, w, edgeTypes)
      else Seen(a0, w, edgeTypes) + (Seen(a0, w, edgeTypes) + (Seen(a2, w, edgeTypes) + Seen(a3, w, edgeTypes))))
  {
    var g := UnweightedHom(directed);
    assert g.edges == FourEdges(DefaultLabel, DefaultLabel, None, None, None) && 1 in g.nodeType;
    NodeOneQuery(g, dir, w, edgeTypes, DefaultLabel, DefaultLabel, None, None, None);
  }

  /** Four entries that all pass the filter are reported in order. */
  lemma AllSeen(a0: Adj, a1: Adj, a2: Adj, a3: Adj, w: bool, edgeTypes: Option<set<Label>>)
    requires Admits(edgeTypes, a0.etype) && Admits(edgeTypes, a1.etype)
    requires Admits(edgeTypes, a2.etype) && Admits(edgeTypes, a3.etype)
    ensures Seen(a0, w, edgeTypes) + (Seen(a1, w, edgeTypes) + (Seen(a2, w, edgeTypes) + Seen(a3, w, edgeTypes))) ==
      [ToNeighbour(a0, w), ToNeighbour(a1, w), ToNeighbour(a2, w), ToNeighbour(a3, w)]
  {
  }

  /** Of four entries, the filter keeps the last two only. */
  lemma LastTwoSeen(a0: Adj, a1: Adj, a2: Adj, a3: Adj, w: bool, edgeTypes: Option<set<Label>>)
    requires !Admits(edgeTypes, a0.etype) && !Admits(edgeTypes, a1.etype)
    requires Admits(edgeTypes, a2.etype) && Admits(edgeTypes, a3.etype)
    ensures Seen(a0, w, edgeTypes) + (Seen(a1, w, edgeTypes) + (Seen(a2, w, edgeTypes) + Seen(a3, w, edgeTypes))) ==
      [ToNeighbour(a2, w), ToNeighbour(a3, w)]
  {
  }

  /** Of four entries, the filter keeps none. */
  lemma NoneOfFourSeen(a0: Adj, a1: Adj, a2: Adj, a3: Adj, w: bool, edgeTypes: Option<set<Label>>)
    requires !Admits(edgeTypes, a0.etype) && !Admits(edgeTypes, a1.etype)
    requires !Admits(edgeTypes, a2.etype) && !Admits(edgeTypes, a3.etype)
    ensures Seen(a0, w, edgeTypes) + (Seen(a1, w, edgeTypes) + (Seen(a2, w, edgeTypes) + Seen(a3, w, edgeTypes))) == []
  {
  }

  /** Two entries that pass the filter are reported in order. */
  lemma BothSeen(a0: Adj, a1: Adj, w: bool, edgeTypes: Option<set<Label>>)
    requires Admits(edgeTypes, a0.etype) && Admits(edgeTypes, a1.etype)
    ensures Seen(a0, w, edgeTypes) + Seen(a1, w, edgeTypes) == [ToNeighbour(a0, w), ToNeighbour(a1, w)]
  {
  }

  /** Of two entries, the filter keeps none. */
  lemma NoneOfTwoSeen(a0: Adj, a1: Adj, w: bool, edgeTypes: Option<set<Label>>)
    requires !Admits(edgeTypes, a0.etype) && !Admits(edgeTypes, a1.etype)
    ensures Seen(a0, w, edgeTypes) + Seen(a1, w, edgeTypes) == []
  {
  }

  /** The results of a query, counted with multiplicity. */
  lemma CountFour(r: seq<Neighbour>, a: Neighbour, b: Neighbour, c: Neighbour, d: Neighbour)
    requires r == [a, b, c, d]
    ensures multiset(r) == multiset{a, b, c, d}
  {
  }

  lemma CountTwo(r: seq<Neighbour>, a: Neighbour, b: Neighbour)
    requires r == [a, b]
    ensures multiset(r) == multiset{a, b}
  {
  }

  /** The "AB" filter drops "AA" entries and keeps "AB" ones. */
  lemma OnlyAB()
    ensures !Admits(Some({"AB"}), "AA") && Admits(Some({"AB"}), "AB")
  {
    assert "AA"[1] != "AB"[1];
  }

  /** Filters naming a type the entries do not carry. */
  lemma ForeignFilters()
    ensures !Admits(Some({"AA"}), "AB")
    ensures !Admits(Some({"AB"}), DefaultLabel) && !Admits(Some({"AA"}), DefaultLabel)
  {
    assert "AA"[1] != "AB"[1];
    assert DefaultLabel[0] != "AB"[0] && DefaultLabel[0] != "AA"[0];
  }

  /** Both parallel edges count, in either orientation of the graph. */
  lemma WeightedHinNeighbors(directed: bool)
    ensures multiset(Neighbors(WeightedHin(directed), 1, false, None).value) ==
      multiset{Plain(0), Plain(0), Plain(2), Plain(3)}
  {
    var r := Neighbors(WeightedHin(directed), 1, false, None).value;
    assert r == [Plain(0), Plain(0), Plain(2), Plain(3)] by {
      WeightedHinQuery(directed, Both, false, None);
      AllSeen(Adj(0, "AA", Some(0.0)), Adj(0, "AA", Some(1.0)), Adj(2, "AB", Some(10.0)), Adj(3, "AB", Some(10.0)), false, None);
    }
    CountFour(r, Plain(0), Plain(0), Plain(2), Plain(3));
  }

  /** Each parallel edge keeps its own weight. */
  lemma WeightedHinNeighborWeights(directed: bool)
    ensures multiset(Neighbors(WeightedHin(directed), 1, true, None).value) ==
      multiset{Weighted(0, Some(0.0)), Weighted(0, Some(1.0)), Weighted(2, Some(10.0)), Weighted(3, Some(10.0))}
  {
    var r := Neighbors(WeightedHin(directed), 1, true, None).value;
    assert r == [Weighted(0, Some(0.0)), Weighted(0, Some(1.0)), Weighted(2, Some(10.0)), Weighted(3, Some(10.0))] by {
      WeightedHinQuery(directed, Both, true, None);
      AllSeen(Adj(0, "AA", Some(0.0)), Adj(0, "AA", Some(1.0)), Adj(2, "AB", Some(10.0)), Adj(3, "AB", Some(10.0)), true, None);
    }
    CountFour(r, Weighted(0, Some(0.0)), Weighted(0, Some(1.0)), Weighted(2, Some(10.0)), Weighted(3, Some(10.0)));
  }

  /** The type filter keeps the "AB" edges only. */
  lemma WeightedHinFilteredNeighbors(directed: bool)
    ensures multiset(Neighbors(WeightedHin(directed), 1, true, Some({"AB"})).value) ==
      multiset{Weighted(2, Some(10.0)), Weighted(3, Some(10.0))}
  {
    var r := Neighbors(WeightedHin(directed), 1, true, Some({"AB"})).value;
    assert r == [Weighted(2, Some(10.0)), Weighted(3, Some(10.0))] by {
      OnlyAB();
      WeightedHinQuery(directed, Both, true, Some({"AB"}));
      LastTwoSeen(Adj(0, "AA", Some(0.0)), Adj(0, "AA", Some(1.0)), Adj(2, "AB", Some(10.0)), Adj(3, "AB", Some(10.0)), true, Some({"AB"}));
    }
    CountTwo(r, Weighted(2, Some(10.0)), Weighted(3, Some(10.0)));
  }

  /** Without weights each parallel edge still counts, reported with an
      absent weight; an "AB" filter finds nothing in an untyped graph. */
  lemma UnweightedHomNeighbors(directed: bool)
    ensures multiset(Neighbors(UnweightedHom(directed), 1, false, None).value) ==
      multiset{Plain(0), Plain(0), Plain(2), Plain(3)}
  {
    var r := Neighbors(UnweightedHom(directed), 1, false, None).value;
    assert r == [Plain(0), Plain(0), Plain(2), Plain(3)] by {
      UnweightedHomQuery(directed, Both, false, None);
      AllSeen(Adj(0, DefaultLabel, None), Adj(0, DefaultLabel, None), Adj(2, DefaultLabel, None), Adj(3, DefaultLabel, None), false, None);
    }
    CountFour(r, Plain(0), Plain(0), Plain(2), Plain(3));
  }

  lemma UnweightedHomNeighborWeights(directed: bool)
    ensures multiset(Neighbors(UnweightedHom(directed), 1, true, None).value) ==
      multiset{Weighted(0, None), Weighted(0, None), Weighted(2, None), Weighted(3, None)}
  {
    var r := Neighbors(UnweightedHom(directed), 1, true, None).value;
    assert r == [Weighted(0, None), Weighted(0, None), Weighted(2, None), Weighted(3, None)] by {
      UnweightedHomQuery(directed, Both, true, None);
      AllSeen(Adj(0, DefaultLabel, None), Adj(0, DefaultLabel, None), Adj(2, DefaultLabel, None), Adj(3, DefaultLabel, None), true, None);
    }
    CountFour(r, Weighted(0, None), Weighted(0, None), Weighted(2, None), Weighted(3, None));
  }

  lemma UnweightedHomFilteredNeighbors(directed: bool)
    ensures Neighbors(UnweightedHom(directed), 1, true, Some({"AB"})) == Ok([])
  {
    ForeignFilters();
    UnweightedHomQuery(directed, Both, true, Some({"AB"}));
    NoneOfFourSeen(Adj(0, DefaultLabel, None), Adj(0, DefaultLabel, None), Adj(2, DefaultLabel, None), Adj(3, DefaultLabel, None), true, Some({"AB"}));
  }

  /** In the directed weighted example node 1 is entered by the two parallel
      edges and leaves by the two "AB" edges; the filters that name the other
      edge type find nothing. */
  lemma WeightedHinInNodes()
    ensures multiset(InNodes(WeightedHin(true), 1, false, None).value) ==
      multiset{Plain(0), Plain(0)}
  {
    var r := InNodes(WeightedHin(true), 1, false, None).value;
    assert r == [Plain(0), Plain(0)] by {
      WeightedHinQuery(true, In, false, None);
      BothSeen(Adj(0, "AA", Some(0.0)), Adj(0, "AA", Some(1.0)), false, None);
    }
    CountTwo(r, Plain(0), Plain(0));
  }

  lemma WeightedHinInNodesWeights()
    ensures multiset(InNodes(WeightedHin(true), 1, true, None).value) ==
      multiset{Weighted(0, Some(0.0)), Weighted(0, Some(1.0))}
  {
    var r := InNodes(WeightedHin(true), 1, true, None).value;
    assert r == [Weighted(0, Some(0.0)), Weighted(0, Some(1.0))] by {
      WeightedHinQuery(true, In, true, None);
      BothSeen(Adj(0, "AA", Some(0.0)), Adj(0, "AA", Some(1.0)), true, None);
    }
    CountTwo(r, Weighted(0, Some(0.0)), Weighted(0, Some(1.0)));
  }

  lemma WeightedHinInNodesFiltered()
    ensures InNodes(WeightedHin(true), 1, true, Some({"AB"})) == Ok([])
  {
    OnlyAB();
    WeightedHinQuery(true, In, true, Some({"AB"}));
    NoneOfTwoSeen(Adj(0, "AA", Some(0.0)), Adj(0, "AA", Some(1.0)), true, Some({"AB"}));
  }

  lemma WeightedHinOutNodes()
    ensures multiset(OutNodes(WeightedHin(true), 1, false, None).value) ==
      multiset{Plain(2), Plain(3)}
  {
    var r := OutNodes(WeightedHin(true), 1, false, None).value;
    assert r == [Plain(2), Plain(3)] by {
      WeightedHinQuery(true, Out, false, None);
      BothSeen(Adj(2, "AB", Some(10.0)), Adj(3, "AB", Some(10.0)), false, None);
    }
    CountTwo(r, Plain(2), Plain(3));
  }

  lemma WeightedHinOutNodesWeights()
    ensures multiset(OutNodes(WeightedHin(true), 1, true, None).value) ==
      multiset{Weighted(2, Some(10.0)), Weighted(3, Some(10.0))}
  {
    var r := OutNodes(WeightedHin(true), 1, true, None).value;
    assert r == [Weighted(2, Some(10.0)), Weighted(3, Some(10.0))] by {
      WeightedHinQuery(true, Out, true, None);
      BothSeen(Adj(2, "AB", Some(10.0)), Adj(3, "AB", Some(10.0)), true, None);
    }
    CountTwo(r, Weighted(2, Some(10.0)), Weighted(3, Some(10.0)));
  }

  lemma WeightedHinOutNodesFiltered()
    ensures OutNodes(WeightedHin(true), 1, true, Some({"AA"})) == Ok([])
  {
    ForeignFilters();
    WeightedHinQuery(true, Out, true, Some({"AA"}));
    NoneOfTwoSeen(Adj(2, "AB", Some(10.0)), Adj(3, "AB", Some(10.0)), true, Some({"AA"}));
  }

  /** The same split without types or weights. */
  lemma UnweightedHomInNodes()
    ensures multiset(InNodes(UnweightedHom(true), 1, false, None).value) ==
      multiset{Plain(0), Plain(0)}
  {
    var r := InNodes(UnweightedHom(true), 1, false, None).value;
    assert r == [Plain(0), Plain(0)] by {
      UnweightedHomQuery(true, In, false, None);
      BothSeen(Adj(0, DefaultLabel, None), Adj(0, DefaultLabel, None), false, None);
    }
    CountTwo(r, Plain(0), Plain(0));
  }

  lemma UnweightedHomInNodesWeights()
    ensures multiset(InNodes(UnweightedHom(true), 1, true, None).value) ==
      multiset{Weighted(0, None), Weighted(0, None)}
  {
    var r := InNodes(UnweightedHom(true), 1, true, None).value;
    assert r == [Weighted(0, None), Weighted(0, None)] by {
      UnweightedHomQuery(true, In, true, None);
      BothSeen(Adj(0, DefaultLabel, None), Adj(0, DefaultLabel, None), true, None);
    }
    CountTwo(r, Weighted(0, None), Weighted(0, None));
  }

  lemma UnweightedHomInNodesFiltered()
    ensures InNodes(UnweightedHom(true), 1, true, Some({"AA"})) == Ok([])
  {
    ForeignFilters();
    UnweightedHomQuery(true, In, true, Some({"AA"}));
    NoneOfTwoSeen(Adj(0, DefaultLabel, None), Adj(0, DefaultLabel, None), true, Some({"AA"}));
  }

  lemma UnweightedHomOutNodes()
    ensures multiset(OutNodes(UnweightedHom(true), 1, false, None).value) ==
      multiset{Plain(2), Plain(3)}
  {
    var r := OutNodes(UnweightedHom(true), 1, false, None).value;
    assert r == [Plain(2), Plain(3)] by {
      UnweightedHomQuery(true, Out, false, None);
      BothSeen(Adj(2, DefaultLabel, None), Adj(3, DefaultLabel, None), false, None);
    }
    CountTwo(r, Plain(2), Plain(3));
  }

  lemma UnweightedHomOutNodesWeights()
    ensures multiset(OutNodes(UnweightedHom(true), 1, true, None).value) ==
      multiset{Weighted(2, None), Weighted(3, None)}
  {
    var r := OutNodes(UnweightedHom(true), 1, true, None).value;
    assert r == [Weighted(2, None), Weighted(3, None)] by {
      UnweightedHomQuery(true, Out, true, None);
      BothSeen(Adj(2, DefaultLabel, None), Adj(3, DefaultLabel, None), true, None);
    }
    CountTwo(r, Weighted(2, None), Weighted(3, None));
  }

  lemma UnweightedHomOutNodesFiltered()
    ensures OutNodes(UnweightedHom(true), 1, true, Some({"AB"})) == Ok([])
  {
    ForeignFilters();
    UnweightedHomQuery(true, Out, true, Some({"AB"}));
    NoneOfTwoSeen(Adj(2, DefaultLabel, None), Adj(3, DefaultLabel, None), true, Some({"AB"}));
  }

  const RatingTypes: map<NodeId, Label> :=
    map[0 := "movie", 1 := "movie", 2 := "movie", 3 := "movie", 4 := "user", 5 := "user"]
  const RatingEdges: seq<Edge> :=
    [Edge(4, 0, "rating", None), Edge(4, 1, "rating", None), Edge(5, 1, "rating", None),
     Edge(4, 2, "rating", None), Edge(5, 3, "rating", None)]

  /** Movies 0-3 rated by users 4 and 5. */
  function Ratings(directed: bool): (g: Graph)
    ensures Valid(g)
  {
    assert RatingTypes[0] == "movie";
    Graph([0, 1, 2, 3, 4, 5], RatingTypes, RatingEdges, directed, map[])
  }

  lemma RatingsTypes(directed: bool)
    ensures NodeTypes(Ratings(directed)) == {"movie", "user"}
  {
    assert RatingTypes[0] == "movie" && RatingTypes[4] == "user";
  }

  /** Every edge runs from a user to a movie with the "rating" type. */
  lemma RatingsEdges()
    ensures forall i :: 0 <= i < |RatingEdges| ==>
      RatingEdges[i].src in RatingTypes && RatingTypes[RatingEdges[i].src] == "user" &&
      RatingEdges[i].dst in RatingTypes && RatingTypes[RatingEdges[i].dst] == "movie" &&
      RatingEdges[i].etype == "rating"
  {
  }

  /** `edges(triple=True)` of the heterogeneous example: the triples are
      exactly the five "R" edges and the one "F" edge. */
  lemma HinEdgeTriples()
    ensures forall x :: x in EdgeTriples(Hin()) <==>
      x in {(0, 4, "R"), (1, 4, "R"), (1, 5, "R"), (2, 4, "R"), (3, 5, "R"), (4, 5, "F")}
  {
    HinEdgeList(Hin());
  }

  /** The triples of any graph with the example's edges, in edge order. */
  lemma HinEdgeList(g: Graph)
    requires g.edges == HinEdges
    ensures EdgeTriples(g) == [(0, 4, "R"), (1, 4, "R"), (1, 5, "R"), (2, 4, "R"), (3, 5, "R"), (4, 5, "F")]
  {
  }

  lemma MovieIsNotUser()
    ensures "movie" != "user"
  {
    assert "movie"[0] != "user"[0];
  }

  /** Directed, only users have out-edges: users reach movies by rating and
      movies reach nothing. */
  lemma RatingsDirectedSchema()
    ensures CreateGraphSchema(Ratings(true), None).Ok?
    ensures CreateGraphSchema(Ratings(true), None).value.schema ==
      map["user" := {("rating", "movie")}, "movie" := {}]
  {
    RatingsTypes(true);
    RatingsEdges();
    MovieIsNotUser();
    BipartiteDirectedSchema(Ratings(true), None, "user", "movie", "rating", 0);
  }

  /** Undirected, each side reaches the other. */
  lemma RatingsUndirectedSchema()
    ensures CreateGraphSchema(Ratings(false), None).Ok?
    ensures CreateGraphSchema(Ratings(false), None).value.schema ==
      map["user" := {("rating", "movie")}, "movie" := {("rating", "user")}]
  {
    RatingsTypes(false);
    RatingsEdges();
    MovieIsNotUser();
    BipartiteUndirectedSchema(Ratings(false), None, "user", "movie", "rating", 0, 0);
  }

  /** Scanning only movie 0 and user 4, which share an edge, gives the same
      schema as scanning everything. */
  lemma RatingsSampledSchema()
    ensures CreateGraphSchema(Ratings(false), Some([0, 4])).Ok?
    ensures CreateGraphSchema(Ratings(false), Some([0, 4])).value.schema ==
      map["user" := {("rating", "movie")}, "movie" := {("rating", "user")}]
  {
    RatingsTypes(false);
    RatingsEdges();
    MovieIsNotUser();
    var g := Ratings(false);
    assert forall i :: 0 <= i < 2 ==> [0, 4][i] in g.nodeType;
    assert 4 in Visited(g, Some([0, 4])) && 0 in Visited(g, Some([0, 4]));
    BipartiteUndirectedSchema(g, Some([0, 4]), "user", "movie", "rating", 0, 0);
  }
}

=== FILE: schema.dfy ===
/** Schema derivation (`create_graph_schema`): for every node type, the set
    of (edge type, neighbour node type) pairs reached along the out-edges of
    the scanned nodes, optionally scanning only a subset of the nodes. */
module Schema {
  import opened Wrappers
  import opened Graph
  import opened Neighbours

  type Pair = (Label, Label)

  datatype GraphSchema = GraphSchema(
    nodeTypes: set<Label>,
    edgeTypes: set<Label>,
    schema: map<Label, set<Pair>>)

  /** Whether scanning edge `e` from the `visited` nodes records pair `p` for
      node type `t`: `e` is an out-edge of a visited node of type `t`, and in
      an undirected graph an edge is an out-edge of both its endpoints. */
  predicate Gives(g: Graph, visited: set<NodeId>, e: Edge, t: Label, p: Pair) {
    && e.src in g.nodeType && e.dst in g.nodeType
    && (|| (e.src in visited && g.nodeType[e.src] == t && p == (e.etype, g.nodeType[e.dst]))
        || (!g.directed && e.dst in visited && g.nodeType[e.dst] == t && p == (e.etype, g.nodeType[e.src])))
  }

  function AddPair(m: map<Label, set<Pair>>, t: Label, p: Pair): map<Label, set<Pair>>
    requires t in m
  {
    m[t := m[t] + {p}]
  }

  /** The pairs recorded after scanning `edges`, starting from `acc`. */
  function Scan(g: Graph, visited: set<NodeId>, edges: seq<Edge>, acc: map<Label, set<Pair>>)
    : (r: map<Label, set<Pair>>)
    requires EdgesKnown(g.nodeType, edges)
    requires NodeTypes(g) <= acc.Keys
    ensures r.Keys == acc.Keys
    ensures forall t, p :: t in r ==>
      (p in r[t] <==> p in acc[t] || exists i :: 0 <= i < |edges| && Gives(g, visited, edges[i], t, p))
  {
    if |edges| == 0 then acc
    else
      var e := edges[0];
      var srcType, dstType := g.nodeType[e.src], g.nodeType[e.dst];
      var m1 := if e.src in visited then AddPair(acc, srcType, (e.etype, dstType)) else acc;
      var m2 := if !g.directed && e.dst in visited then AddPair(m1, dstType, (e.etype, srcType)) else m1;
      assert forall t, p :: t in m2 ==> (p in m2[t] <==> p in acc[t] || Gives(g, visited, e, t, p));
      var r := Scan(g, visited, edges[1..], m2);
      GivesShift(g, visited, edges);
      r
  }

  /** Some edge of the list gives `p` for `t` exactly when its head or some
      edge of its tail does. */
  lemma GivesShift(g: Graph, visited: set<NodeId>, edges: seq<Edge>)
    requires |edges| > 0
    ensures forall t, p ::
      (exists i :: 0 <= i < |edges| && Gives(g, visited, edges[i], t, p)) <==>
      Gives(g, visited, edges[0], t, p) || exists i :: 0 <= i < |edges| - 1 && Gives(g, visited, edges[1..][i], t, p)
  {
    assert forall i :: 0 <= i < |edges| - 1 ==> edges[1..][i] == edges[i + 1];
    forall t, p | exists i :: 0 <= i < |edges| && Gives(g, visited, edges[i], t, p)
      ensures Gives(g, visited, edges[0], t, p) || exists i :: 0 <= i < |edges| - 1 && Gives(g, visited, edges[1..][i], t, p)
    {
      var i :| 0 <= i < |edges| && Gives(g, visited, edges[i], t, p);
      if i > 0 { assert Gives(g, visited, edges[1..][i - 1], t, p); }
    }
  }

  /** The nodes a scan visits: all of them, or the given subset. */
  function Visited(g: Graph, nodes: Option<seq<NodeId>>): set<NodeId> {
    match nodes
    case None => g.nodeType.Keys
    case Some(ns) => set n | n in ns
  }

  /** `create_graph_schema(nodes)`: every node type gets an entry, possibly
      empty; the pairs are those given by the out-edges of the visited nodes.
      A subset naming an unknown node is an error. */
  function CreateGraphSchema(g: Graph, nodes: Option<seq<NodeId>>): (r: Result<GraphSchema, Error>)
    requires Valid(g)
    ensures r.Err? <==> nodes.Some? && exists i :: 0 <= i < |nodes.value| && nodes.value[i] !in g.nodeType
    ensures r.Err? ==> r.error.UnknownNode? && r.error.id in nodes.value && r.error.id !in g.nodeType
    ensures r.Ok? ==> r.value.nodeTypes == NodeTypes(g) && r.value.edgeTypes == EdgeTypes(g)
    ensures r.Ok? ==> r.value.schema.Keys == NodeTypes(g)
    ensures r.Ok? ==> forall t, p :: t in r.value.schema ==>
      (p in r.value.schema[t] <==>
        exists i :: 0 <= i < |g.edges| && Gives(g, Visited(g, nodes), g.edges[i], t, p))
  {
    match FirstMissing(g, nodes)
    case Some(n) => Err(UnknownNode(n))
    case None =>
      var empty := map t | t in NodeTypes(g) :: {};
      Ok(GraphSchema(NodeTypes(g), EdgeTypes(g), Scan(g, Visited(g, nodes), g.edges, empty)))
  }

  /** The first node of the subset that is not in the graph, if any. */
  function FirstMissing(g: Graph, nodes: Option<seq<NodeId>>): (r: Option<NodeId>)
    ensures r.None? <==> nodes.None? || forall i :: 0 <= i < |nodes.value| ==> nodes.value[i] in g.nodeType
    ensures r.Some? ==> nodes.Some? && r.value in nodes.value && r.value !in g.nodeType
  {
    match nodes
    case None => None
    case Some(ns) => FirstMissingIn(g, ns)
  }

  function FirstMissingIn(g: Graph, ns: seq<NodeId>): (r: Option<NodeId>)
    ensures r.None? <==> forall i :: 0 <= i < |ns| ==> ns[i] in g.nodeType
    ensures r.Some? ==> r.value in ns && r.value !in g.nodeType
  {
    if |ns| == 0 then None
    else if ns[0] !in g.nodeType then Some(ns[0])
    else
      var r := FirstMissingIn(g, ns[1..]);
      assert forall i :: 1 <= i < |ns| ==> ns[i] == ns[1..][i - 1];
      r
  }

  /** Node `n` of type `t` has an out-entry whose edge type and neighbour type form `p`. */
  ghost predicate OutPair(g: Graph, n: NodeId, t: Label, p: Pair)
    requires Valid(g)
  {
    && n in g.nodeType && g.nodeType[n] == t
    && exists a :: a in Entries(g.directed, g.edges, n, Out) && a.node in g.nodeType &&
         p == (a.etype, g.nodeType[a.node])
  }

  lemma EdgeGivesOutEntry(g: Graph, visited: set<NodeId>, e: Edge, t: Label, p: Pair)
    requires e.src in g.nodeType && e.dst in g.nodeType
    ensures Gives(g, visited, e, t, p) <==>
      exists n :: n in visited && n in g.nodeType && g.nodeType[n] == t &&
        exists a :: a in EdgeEntries(g.directed, e, n, Out) && a.node in g.nodeType &&
          p == (a.etype, g.nodeType[a.node])
  {
    if e.src in visited && g.nodeType[e.src] == t && p == (e.etype, g.nodeType[e.dst]) {
      assert Adj(e.dst, e.etype, e.weight) in EdgeEntries(g.directed, e, e.src, Out);
    } else if !g.directed && e.dst in visited && g.nodeType[e.dst] == t && p == (e.etype, g.nodeType[e.src]) {
      assert EdgeEntries(g.directed, e, e.dst, Out)[0] in EdgeEntries(g.directed, e, e.dst, Out);
    }
  }

  /** The schema entry of type `t` holds exactly the (edge type, neighbour
      type) pairs of the out-adjacency lists of the scanned nodes of type `t`. */
  lemma SchemaFollowsOutEntries(g: Graph, nodes: Option<seq<NodeId>>, t: Label, p: Pair)
    requires Valid(g)
    requires CreateGraphSchema(g, nodes).Ok?
    requires t in NodeTypes(g)
    ensures p in CreateGraphSchema(g, nodes).value.schema[t] <==>
      exists n :: n in Visited(g, nodes) && OutPair(g, n, t, p)
  {
    var v := Visited(g, nodes);
    if p in CreateGraphSchema(g, nodes).value.schema[t] {
      var i :| 0 <= i < |g.edges| && Gives(g, v, g.edges[i], t, p);
      GivesIsOutPair(g, v, t, p, i);
    }
    if n :| n in v && OutPair(g, n, t, p) {
      OutPairGives(g, v, t, p, n);
    }
  }

  /** The pair an edge gives comes from an out-entry of a visited node. */
  lemma GivesIsOutPair(g: Graph, v: set<NodeId>, t: Label, p: Pair, i: nat)
    requires Valid(g)
    requires i < |g.edges| && Gives(g, v, g.edges[i], t, p)
    ensures exists n :: n in v && OutPair(g, n, t, p)
  {
    var es := g.edges;
    EdgeGivesOutEntry(g, v, es[i], t, p);
    var n :| n in v && n in g.nodeType && g.nodeType[n] == t &&
      exists a :: a in EdgeEntries(g.directed, es[i], n, Out) && a.node in g.nodeType &&
        p == (a.etype, g.nodeType[a.node]);
    var a :| a in EdgeEntries(g.directed, es[i], n, Out) && a.node in g.nodeType &&
        p == (a.etype, g.nodeType[a.node]);
    EntriesComeFromEdges(g.directed, es, n, Out, a);
    assert OutPair(g, n, t, p);
  }

  /** An out-entry of a visited node comes from an edge that gives its pair. */
  lemma OutPairGives(g: Graph, v: set<NodeId>, t: Label, p: Pair, n: NodeId)
    requires Valid(g)
    requires n in v && OutPair(g, n, t, p)
    ensures exists i :: 0 <= i < |g.edges| && Gives(g, v, g.edges[i], t, p)
  {
    var es := g.edges;
    var a :| a in Entries(g.directed, es, n, Out) && a.node in g.nodeType &&
      p == (a.etype, g.nodeType[a.node]);
    EntriesComeFromEdges(g.directed, es, n, Out, a);
    var i :| 0 <= i < |es| && a in EdgeEntries(g.directed, es[i], n, Out);
    EdgeGivesOutEntry(g, v, es[i], t, p);
    assert Gives(g, v, es[i], t, p);
  }

  /** A schema from a subset of the nodes never claims more than the full schema. */
  lemma SampledSchemaIsPartial(g: Graph, nodes: seq<NodeId>, t: Label)
    requires Valid(g)
    requires CreateGraphSchema(g, Some(nodes)).Ok?
    requires t in NodeTypes(g)
    ensures CreateGraphSchema(g, None).Ok?
    ensures CreateGraphSchema(g, Some(nodes)).value.schema[t] <= CreateGraphSchema(g, None).value.schema[t]
  {
    var part := CreateGraphSchema(g, Some(nodes)).value.schema[t];
    var full := CreateGraphSchema(g, None).value.schema[t];
    forall p | p in part ensures p in full {
      var i :| 0 <= i < |g.edges| && Gives(g, Visited(g, Some(nodes)), g.edges[i], t, p);
      assert Gives(g, Visited(g, None), g.edges[i], t, p);
    }
  }

  /** A graph without type labels: one node type and one edge type, both the
      default label, and the default pair in the schema when there are edges. */
  lemma UntypedGraphSchema(g: Graph)
    requires Valid(g) && |g.edges| > 0
    requires forall id :: id in g.nodeType ==> g.nodeType[id] == DefaultLabel
    requires forall i :: 0 <= i < |g.edges| ==> g.edges[i].etype == DefaultLabel
    ensures CreateGraphSchema(g, None).Ok?
    ensures CreateGraphSchema(g, None).value.nodeTypes == {DefaultLabel}
    ensures CreateGraphSchema(g, None).value.edgeTypes == {DefaultLabel}
    ensures CreateGraphSchema(g, None).value.schema == map[DefaultLabel := {(DefaultLabel, DefaultLabel)}]
  {
    var e := g.edges[0];
    assert NodeTypes(g) == {DefaultLabel} by {
      assert g.nodeType[e.src] == DefaultLabel;
    }
    assert EdgeTypes(g) == {DefaultLabel} by {
      assert e.etype in EdgeTypes(g);
    }
    var d := (DefaultLabel, DefaultLabel);
    assert CreateGraphSchema(g, None).value.schema[DefaultLabel] == {d} by {
      assert Gives(g, Visited(g, None), e, DefaultLabel, d);
      SingleEntry(g, None, DefaultLabel, d, 0);
    }
  }

  /** An entry holds exactly one pair when one edge gives it and every edge
      that gives anything for that type gives it. */
  lemma SingleEntry(g: Graph, nodes: Option<seq<NodeId>>, t: Label, q: Pair, i: nat)
    requires Valid(g) && CreateGraphSchema(g, nodes).Ok? && t in NodeTypes(g)
    requires i < |g.edges| && Gives(g, Visited(g, nodes), g.edges[i], t, q)
    requires forall k, p :: 0 <= k < |g.edges| && Gives(g, Visited(g, nodes), g.edges[k], t, p) ==> p == q
    ensures CreateGraphSchema(g, nodes).value.schema[t] == {q}
  {
    var s := CreateGraphSchema(g, nodes).value.schema;
    SingletonOf(s[t], g, Visited(g, nodes), t, q, i);
  }

  /** A set of exactly the pairs the edges give for `t` is `{q}` when one edge
      gives `q` and nothing else is given. */
  lemma SingletonOf(s: set<Pair>, g: Graph, v: set<NodeId>, t: Label, q: Pair, i: nat)
    requires forall p :: p in s <==> exists k :: 0 <= k < |g.edges| && Gives(g, v, g.edges[k], t, p)
    requires i < |g.edges| && Gives(g, v, g.edges[i], t, q)
    requires forall k, p :: 0 <= k < |g.edges| && Gives(g, v, g.edges[k], t, p) ==> p == q
    ensures s == {q}
  {
    forall p | p in s ensures p == q {
      var k :| 0 <= k < |g.edges| && Gives(g, v, g.edges[k], t, p);
    }
  }

  /** An entry is empty when no edge gives anything for that type. */
  lemma EmptyEntry(g: Graph, nodes: Option<seq<NodeId>>, t: Label)
    requires Valid(g) && CreateGraphSchema(g, nodes).Ok? && t in NodeTypes(g)
    requires forall k, p :: 0 <= k < |g.edges| ==> !Gives(g, Visited(g, nodes), g.edges[k], t, p)
    ensures CreateGraphSchema(g, nodes).value.schema[t] == {}
  {
  }

  /** In a graph whose edges all run from type `a` to a different type `b`
      with edge type `et`, a type-`a` node only ever records (et, b), and a
      type-`b` node records (et, a) if the graph is undirected and nothing
      otherwise. */
  lemma BipartiteGives(g: Graph, v: set<NodeId>, a: Label, b: Label, et: Label)
    requires Valid(g) && a != b
    requires forall k :: 0 <= k < |g.edges| ==>
      g.nodeType[g.edges[k].src] == a && g.nodeType[g.edges[k].dst] == b && g.edges[k].etype == et
    ensures forall k, p :: 0 <= k < |g.edges| && Gives(g, v, g.edges[k], a, p) ==> p == (et, b)
    ensures forall k, p :: 0 <= k < |g.edges| && Gives(g, v, g.edges[k], b, p) ==> !g.directed && p == (et, a)
  {
  }

  /** A map with two keys is determined by its two entries. */
  lemma MapOfTwo<K, V>(m: map<K, V>, a: K, b: K)
    requires m.Keys == {a, b}
    ensures m == map[a := m[a], b := m[b]]
  {
  }

  /** A directed graph whose edges all run from type `a` to a different type
      `b` with edge type `et`: `a` reaches `b` and `b` reaches nothing, as
      soon as a source of some edge is scanned. */
  lemma BipartiteDirectedSchema(g: Graph, nodes: Option<seq<NodeId>>, a: Label, b: Label, et: Label, i: nat)
    requires Valid(g) && g.directed && a != b && NodeTypes(g) == {a, b}
    requires forall k :: 0 <= k < |g.edges| ==>
      g.nodeType[g.edges[k].src] == a && g.nodeType[g.edges[k].dst] == b && g.edges[k].etype == et
    requires CreateGraphSchema(g, nodes).Ok?
    requires i < |g.edges| && g.edges[i].src in Visited(g, nodes)
    ensures CreateGraphSchema(g, nodes).value.schema == map[a := {(et, b)}, b := {}]
  {
    var s := CreateGraphSchema(g, nodes).value.schema;
    BipartiteGives(g, Visited(g, nodes), a, b, et);
    SingleEntry(g, nodes, a, (et, b), i);
    EmptyEntry(g, nodes, b);
    assert s.Keys == {a, b};
    MapOfTwo(s, a, b);
  }

  /** The same graph undirected: each type reaches the other, as soon as one
      endpoint of each kind is scanned. */
  lemma BipartiteUndirectedSchema(g: Graph, nodes: Option<seq<NodeId>>, a: Label, b: Label, et: Label,
                                  i: nat, j: nat)
    requires Valid(g) && !g.directed && a != b && NodeTypes(g) == {a, b}
    requires forall k :: 0 <= k < |g.edges| ==>
      g.nodeType[g.edges[k].src] == a && g.nodeType[g.edges[k].dst] == b && g.edges[k].etype == et
    requires CreateGraphSchema(g, nodes).Ok?
    requires i < |g.edges| && g.edges[i].src in Visited(g, nodes)
    requires j < |g.edges| && g.edges[j].dst in Visited(g, nodes)
    ensures CreateGraphSchema(g, nodes).value.schema == map[a := {(et, b)}, b := {(et, a)}]
  {
    var s := CreateGraphSchema(g, nodes).value.schema;
    BipartiteGives(g, Visited(g, nodes), a, b, et);
    SingleEntry(g, nodes, a, (et, b), i);
    SingleEntry(g, nodes, b, (et, a), j);
    assert s.Keys == {a, b};
    MapOfTwo(s, a, b);
  }
}

=== FILE: wrappers.dfy ===
/** Failure-compatible wrappers used throughout the model: `Option` for the
    source's `None`-able values (null node ids, absent weights, absent type
    labels) and `Result` for operations that raise. */
module Wrappers {

  datatype Option<+T> = None | Some(value: T)

  datatype Result<+T, +E> = Ok(value: T) | Err(error: E) {

    predicate IsFailure() {
      Err?
    }

    function PropagateFailure<U>(): Result<U, E>
      requires Err?
    {
      Err(error)
    }

    function Extract(): T
      requires Ok?
    {
      value
    }
  }
}
